=== FILE: README.md ===
# Client tracker: validation, paging and client normalisers in Dafny

A model of the logic inside a small Next.js CRUD app that tracks client
companies and sales prospects. Everything the app hands to its datastore,
to cookies or to React is left out. What remains is pure string and integer
logic:

- **The route handlers.**
  - The session check (`auth` cookie equal to `"1"`).
  - The POST validation chains of the companies and prospects handlers.
    Seven checks run in a fixed order and the first failure wins.
  - The row each POST inserts.
  - How the GET handlers read `page`, `search` and the filters, and how they
    turn them into a range window, equality filters and a page count.
  - The login decision and the `/dashboard` middleware.
- **The client components.**
  - The contact-number sanitiser of the three dialogs.
  - The nullable text boxes (`value || null`, shown as `value ?? ""`).
  - The follow-up date box.
  - The query strings the tables send and what the handlers read back from
    them.
  - The pager guards and the status badge colours.
  - In the prospect table: the industry display mapping, the server-row
    mapping, the fetch parameters and the update payload.

JavaScript semantics are written out:

- `\s` and `trim()` use the full ECMAScript white-space set.
- `\d` is ASCII.
- `parseInt` is modelled completely, with `None` for `NaN`.
- `??`, `||` and `?.` are written as explicit cases.
- A request-body field is `Absent` (undefined or null), `Str`, or `Other`
  (any other JSON value). `Other` makes `.trim()` throw, so the handler
  answers 500.

Modules, one per source file or shared concept:

- Shared concepts:
  - `Text`: white space, trim, ASCII lower case.
  - `Nullable`: `??`, `|| null`.
  - `Decimal`: `String(n)`, `parseInt`.
  - `QueryParams`: `URLSearchParams`.
  - `Formats`: the two regexes.
  - `Validation`: the check chain and responses.
  - `Paging`: windows, page count and pager.
  - `Listing`: the shared GET handler shape.
  - `Session`.
  - `Records`: the client-side rows.
  - `ContactNumber`: the sanitiser.
- Route handlers: `ProspectsApi` and `CompaniesApi` (the two `route.ts`
  files), `Login`, `Middleware`.
- Client components: `AddCompanyDialog`, `EditCompanyDialog`,
  `EditProspectDialog`, `CompaniesTable`, `ProspectsTable` and
  `ProspectTable`.

Where the code differs from what its messages or names suggest, the model follows the code:

- The login handler parses the body before it reads the configuration.
  An unparseable body gets 400 even when the server is not configured.
- The example number in the phone message, `09918121869`, has eleven
  characters, so the handler's own pattern rejects it
  (`Formats.MessageExampleRejected`).
- The prospect table (`ProspectTable.tsx`) sends `status` and `date`. The
  prospects GET handler reads neither; it reads `prospectStatus`. The
  table's status and date filters therefore never reach the query
  (`ProspectTable.ServerReadsFilters`).
- `toLowerCase` is taken to be ASCII only.

## Model

| member | source | states |
|---|---|---|
| Text.Trim | src/app/api/prospects/route.ts:90-119 | `.trim()`: the result has no white space at either end; it is empty exactly when the input is all white space; text with no white space is returned unchanged |
| Text.TrimIsSlice | src/app/api/prospects/route.ts:146-150 | the trimmed text is a contiguous piece of the input with only white space cut off on either side |
| Text.TrimIdempotent | src/app/api/prospects/route.ts:146-150 | trimming an already trimmed value changes nothing |
| Nullable.NullIfEmpty | src/components/EditCompanyDialog.tsx:223 | `value \|\| null` on text: null exactly for "", otherwise the text itself |
| Nullable.ShowThenStore | src/components/EditCompanyDialog.tsx:221-223 | a stored value shown with `?? ""` and typed back with `\|\| null` is stored unchanged, whenever it is null or non-empty |
| Decimal.IntToString | src/components/CompaniesTable.tsx:58 | `page.toString()` is non-empty and starts with '-' exactly for negative pages |
| Decimal.ParseIntOfIntToString | src/app/api/companies/route.ts:19 | `parseInt` reads a page number written by `toString()` back as the same number |
| Decimal.ParseIntOfBlank | src/app/api/companies/route.ts:19 | `parseInt` of a white-space-only string is NaN |
| Decimal.ParseIntOfNonDigit | src/app/api/companies/route.ts:19 | `parseInt` is NaN when the first character after white space and an optional sign is not a digit |
| QueryParams.Get | src/app/api/companies/route.ts:18-22 | `searchParams.get`: null exactly when the key is absent, else the value of the first pair with that key |
| QueryParams.GetConcat | src/components/CompaniesTable.tsx:57-62 | a key is looked up in the earlier pairs first and only then in the later ones |
| QueryParams.GetOptional2 | src/components/ProspectsTable.tsx:70-76 | two `...(v && { key: v })` entries read back as sent, or as missing when the value was "" |
| Formats.PhoneIsPattern | src/app/api/companies/route.ts:116-117 | the phone check holds exactly for "09" followed by ten ASCII digits and nothing else |
| Formats.EmailIsPattern | src/app/api/companies/route.ts:128-129 | the email check holds exactly for local@host.tld with three non-empty parts free of white space and '@' |
| Formats.AcceptedEmailMatches | src/app/api/companies/route.ts:128-129 | every accepted address splits into the three parts of the pattern |
| Formats.SplitIsAccepted | src/app/api/companies/route.ts:128-129 | every address built from three valid parts is accepted |
| Formats.SplitCharacters | src/app/api/companies/route.ts:128-129 | an address built from three parts has its single '@' and its '.' where the parts put them, and no white space |
| Formats.SampleAddresses | src/app/api/prospects/route.ts:134-135 | "a@b.co" is accepted; "a@b", "a.b.com" and "" are rejected |
| Formats.PaddedPhone | src/app/api/prospects/route.ts:102-123 | a valid number with a leading space passes the required check but fails the phone check, which tests the untrimmed value |
| Formats.AcceptedValuesAreTrimmed | src/app/api/prospects/route.ts:146-149 | an accepted phone or email has nothing for `.trim()` to remove before insertion |
| Validation.RequireText | src/app/api/prospects/route.ts:90-95 | `!x?.trim()`: passes exactly for a string that is not all white space; throws exactly for a non-string; otherwise fails with the field's message |
| Validation.RequirePhone | src/app/api/prospects/route.ts:122-131 | passes exactly for a string matching the phone pattern, else fails with the phone message |
| Validation.RequireEmail | src/app/api/prospects/route.ts:134-140 | passes exactly for a string matching the email pattern, else fails with "Invalid email address" |
| Validation.AllPass | src/app/api/prospects/route.ts:89-140 | a chain of checks passes exactly when every check in it passes |
| Validation.FirstFailureAt | src/app/api/prospects/route.ts:89-140 | the chain's verdict is that of the first check that does not pass |
| Validation.Respond | src/app/api/prospects/route.ts:142-170 | a rejected body is answered with its error; an accepted one gets 201 exactly when the insert succeeds, 400 with the datastore's message when it fails, 500 when it throws; the 201 body is the first returned row (`data?.[0]`), or empty when none was returned |
| ProspectsApi.Validate | src/app/api/prospects/route.ts:89-140 | the chain passes exactly for a well-formed body; a throw comes only from a non-string required field |
| ProspectsApi.ValidateIsFirstFailure | src/app/api/prospects/route.ts:89-140 | the nested early returns are the first failure of the seven checks in source order |
| ProspectsApi.Create | src/app/api/prospects/route.ts:72-160 | 401 without the session cookie, before the body is read; 500 for an unparseable body; accepted exactly for a signed-in, well-formed body, and then the row is that body's row |
| ProspectsApi.ReportsFirstFailedCheck | src/app/api/prospects/route.ts:89-140 | when check i is the first to fail, the response is that check's 400 message (or 500 for a throw) |
| ProspectsApi.PhoneFormatReported | src/app/api/prospects/route.ts:121-131 | with every required field filled, a number outside the pattern gets the phone message |
| ProspectsApi.PaddedPhoneRejected | src/app/api/prospects/route.ts:121-131 | a correct number sent with a leading space is refused with the phone message |
| ProspectsApi.OptionalText | src/app/api/prospects/route.ts:151 | `website?.trim() \|\| null`: null exactly for a missing or blank website, else the trimmed text |
| ProspectsApi.Row | src/app/api/prospects/route.ts:144-156 | the inserted prospect has the required fields trimmed, the optional website, call count 0, "Not Called", "Prospect", and no notes or follow-up date |
| ProspectsApi.ReadQuery | src/app/api/prospects/route.ts:18-23 | the page and the four filters are read from their own keys, "" when missing |
| ProspectsApi.Plan | src/app/api/prospects/route.ts:25-49 | the range window comes from the page; the `or` filter over company name and contact person is set exactly when the search is non-empty, with that search; the industry, call-status and prospect-status equality filters are each present exactly when non-empty, once each, and there are no others |
| ProspectsApi.List | src/app/api/prospects/route.ts:11-62 | 401 without the session cookie and no query; otherwise the query is the one read from the parameters and the answer is the datastore's: the rows with the page read, page size 20, the total and its page count, 400 with the datastore's message, or 500 on a throw |
| CompaniesApi.Validate | src/app/api/companies/route.ts:83-134 | the chain passes exactly for a well-formed body; a throw comes only from a non-string required field |
| CompaniesApi.ValidateIsFirstFailure | src/app/api/companies/route.ts:83-134 | the nested early returns are the first failure of the seven checks in source order |
| CompaniesApi.Create | src/app/api/companies/route.ts:67-152 | 401 without the session cookie; 500 for an unparseable body; accepted exactly for a signed-in, well-formed body, and then the row is that body's row |
| CompaniesApi.ReportsFirstFailedCheck | src/app/api/companies/route.ts:83-134 | when check i is the first to fail, the response is that check's 400 message (or 500 for a throw) |
| CompaniesApi.PhoneFormatReported | src/app/api/companies/route.ts:115-125 | with every required field filled, a number outside the pattern gets the phone message |
| CompaniesApi.MissingClientNameReported | src/app/api/companies/route.ts:84-95 | with a company name but no client name the answer is "Client name is required", whatever the later fields hold |
| CompaniesApi.Row | src/app/api/companies/route.ts:138-150 | the inserted company has the required fields trimmed, null remarks and to-do, and status "Active" |
| CompaniesApi.ReadQuery | src/app/api/companies/route.ts:18-22 | the page and the three filters are read from their own keys, "" when missing |
| CompaniesApi.Plan | src/app/api/companies/route.ts:24-44 | the range window comes from the page; the `or` filter over company name and client name is set exactly when the search is non-empty, with that search; the industry and status equality filters are each present exactly when non-empty, once each, and there are no others |
| CompaniesApi.List | src/app/api/companies/route.ts:11-57 | 401 without the session cookie and no query; otherwise the query is the one read from the parameters and the answer is the datastore's: the rows with the page read, page size 20, the total and its page count, 400 with the datastore's message, or 500 on a throw |
| Listing.ReadPage | src/app/api/companies/route.ts:19 | a query without a page key reads as page 1 |
| Listing.RespondList | src/app/api/companies/route.ts:46-57 | 400 with the datastore's message on a failure; 500 on a throw; otherwise the rows with the page count of the total |
| Listing.GatedList | src/app/api/companies/route.ts:13-16 | the session check comes before any query is built |
| Listing.ReadPageOfWrittenPage | src/components/CompaniesTable.tsx:57-58 | a page number written first in the query is read back as that page, with that page's window |
| Paging.WindowOf | src/app/api/companies/route.ts:24-30 | the inclusive range holds exactly 20 rows and starts at 0 or later exactly for pages 1 and up |
| Paging.WindowsAdjacent | src/app/api/companies/route.ts:25-30 | each page's window starts right after the previous page's |
| Paging.WindowsPartition | src/app/api/companies/route.ts:25-30 | row i lies in the window of exactly one page, page i/20 + 1 |
| Paging.TotalPages | src/app/api/companies/route.ts:52 | `ceil((count \|\| 0)/20)`: zero exactly for no rows, otherwise the smallest page count that holds them all |
| Paging.PageCountMatchesRows | src/app/api/companies/route.ts:25-52 | a page has rows exactly when it is between 1 and the page count; every page but the last is full |
| Paging.PageLinks | src/components/CompaniesTable.tsx:300-312 | one link per page, numbered 1 to the page count |
| Paging.Request | src/components/CompaniesTable.tsx:283-325 | the pager is shown only for more than one page; previous fires exactly above page 1, next exactly below the last page, a link exactly for an existing page |
| Paging.RequestsStayInRange | src/components/CompaniesTable.tsx:283-325 | every page the pager asks for is between 1 and the page count, and is the page before, the page after, or the link's page |
| Login.HandleLogin | src/app/api/login/route.ts:3-42 | 400 for an unparseable body; then 500 without both settings; log-in exactly when both credentials match, and then the cookie passes the session check with a one-day lifetime; 401 otherwise |
| Middleware.Decide | src/middleware.ts:4-13 | a redirect to "/" on the same origin exactly for a `/dashboard`-prefixed path without the session cookie; every other request passes |
| Middleware.RedirectTargetPasses | src/middleware.ts:4-13 | following the redirect never redirects again |
| Middleware.Handle | src/middleware.ts:4-18 | with the `/dashboard/:path*` matcher: a redirect to "/" exactly for `/dashboard` or a path below it without the session cookie; every unmatched path passes without the function running |
| Middleware.MatchedIsGated | src/middleware.ts:5-18 | every path the matcher admits has the prefix the function tests |
| Middleware.PrefixLookalikesPass | src/middleware.ts:5-18 | the function alone would redirect `/dashboards`, but the matcher never sends it there, so the request passes |
| Middleware.HandledRedirectPasses | src/middleware.ts:4-18 | following the framework's redirect never redirects again |
| Middleware.LoginOpensDashboard | src/app/api/login/route.ts:20-28 | the cookie a successful login sets lets every `/dashboard` request through |
| ContactNumber.Sanitize | src/components/AddCompanyDialog.tsx:53-62 | digits only, as many as there are up to twelve, and exactly the first digits of the input in order |
| ContactNumber.SanitizeIdempotent | src/components/AddCompanyDialog.tsx:58-61 | sanitising a sanitised number changes nothing |
| ContactNumber.SanitizeClean | src/components/AddCompanyDialog.tsx:58-61 | a number of at most twelve digits is kept as it is |
| ContactNumber.SanitizeKeepsPhone | src/components/AddCompanyDialog.tsx:58-61 | every number the handlers accept survives the sanitiser unchanged |
| ContactNumber.SanitizeExtends | src/components/AddCompanyDialog.tsx:53-62 | typing more characters never changes the digits already in the box |
| ContactNumber.DigitsAppend | src/components/AddCompanyDialog.tsx:58 | the digits of joined text are the digits of each part, joined |
| ContactNumber.SampleSanitize | src/components/AddCompanyDialog.tsx:58-61 | "0917-1234567890" becomes "091712345678" |
| Records.FailureText | src/components/AddCompanyDialog.tsx:79-82 | `errorData.error \|\| fallback`: the server's message unless it is missing or empty |
| Records.UpdateToast | src/components/EditCompanyDialog.tsx:80-90 | after an edit dialog's PUT: the success text exactly for an ok reply, otherwise the server's error or the dialog's fallback |
| AddCompanyDialog.Apply | src/components/AddCompanyDialog.tsx:53-192 | each edit changes exactly its own field: a contact-number edit stores the sanitised text, every other edit stores its text as typed |
| AddCompanyDialog.NumberStaysClean | src/components/AddCompanyDialog.tsx:32-62 | from a clean form, every sequence of edits leaves a number of at most twelve digits |
| AddCompanyDialog.RequestBody | src/components/AddCompanyDialog.tsx:71-75 | every form field is sent as a string under its own key |
| AddCompanyDialog.SubmitAccepted | src/components/AddCompanyDialog.tsx:64-94 | a signed-in submit of a reachable form is accepted exactly when no text field is blank, the number has twelve digits starting "09", and the email has the accepted shape |
| AddCompanyDialog.CleanIsPhone | src/components/AddCompanyDialog.tsx:58-61 | for a sanitised number the phone check reduces to its length and first two digits |
| AddCompanyDialog.ReplyOf | src/components/AddCompanyDialog.tsx:77-82 | `res.ok` exactly for 201, otherwise the body's error text |
| AddCompanyDialog.AfterSubmit | src/components/AddCompanyDialog.tsx:79-97 | on success the form is cleared and the dialog closed; on failure the form stays and the error is shown |
| AddCompanyDialog.ShortNumberShowsPhoneMessage | src/components/AddCompanyDialog.tsx:64-97 | an eleven-digit number is refused by the handler with the phone message, which the dialog shows while keeping the form |
| EditCompanyDialog.Apply | src/components/EditCompanyDialog.tsx:54-237 | each edit changes exactly its own field: names, email, industry and status are stored as given, the number is sanitised, remarks and to-do are stored with `\|\| null`; the id and timestamps are kept |
| EditCompanyDialog.IdentityKept | src/components/EditCompanyDialog.tsx:37 | no sequence of edits changes the id or the timestamps |
| EditCompanyDialog.NotesNeverEmpty | src/components/EditCompanyDialog.tsx:217-237 | starting without empty remarks or to-do, no sequence of edits stores "" in them |
| EditCompanyDialog.RetypingRemarksKeepsThem | src/components/EditCompanyDialog.tsx:221-223 | typing back what the remarks box shows leaves the form as it was |
| EditProspectDialog.DateToIso | src/components/EditProspectDialog.tsx:285-288 | a picked date becomes a timestamp whose first ten characters are the date, followed by 'T' |
| EditProspectDialog.BeforeFirst | src/components/EditProspectDialog.tsx:279-280 | `split("T")[0]`: the text before the first 'T', or all of it |
| EditProspectDialog.FollowUpDisplay | src/components/EditProspectDialog.tsx:278-282 | nothing for no date, else the part before 'T' |
| EditProspectDialog.Apply | src/components/EditProspectDialog.tsx:67-290 | each edit changes exactly its own field: text and selects are stored as given, the number is sanitised, website and notes are stored with `\|\| null`, a picked date is stored as its midnight-UTC ISO timestamp and a cleared one as null; the id and the call history are kept |
| EditProspectDialog.CallHistoryKept | src/components/EditProspectDialog.tsx:37 | no sequence of edits changes the id, the call count or the last call time |
| EditProspectDialog.PickedDateShown | src/components/EditProspectDialog.tsx:274-290 | after a date is picked the box shows that date; after clearing it shows nothing |
| EditProspectDialog.SampleFollowUp | src/components/EditProspectDialog.tsx:278-282 | "2025-03-14T09:30:00Z" shows as "2025-03-14" |
| EditProspectDialog.RetypingKeepsNotes | src/components/EditProspectDialog.tsx:204-266 | typing back what the website or notes box shows leaves the form as it was |
| CompaniesTable.FetchParams | src/components/CompaniesTable.tsx:57-62 | the page comes first, followed by the filters |
| CompaniesTable.GetFilter | src/components/CompaniesTable.tsx:59-61 | each filter reads back as sent, or as missing when it was "" |
| CompaniesTable.ParamsReadBack | src/components/CompaniesTable.tsx:57-62 | the handler reads exactly the page and filters the table sent |
| CompaniesTable.Fetch | src/components/CompaniesTable.tsx:53-80 | a listed reply replaces the rows and the pagination with the handler's; any other reply keeps both |
| CompaniesTable.PagerAfterFetch | src/components/CompaniesTable.tsx:283-325 | after fetching an existing page, every page the pager asks for exists |
| CompaniesTable.StatusColor | src/components/CompaniesTable.tsx:130-141 | the grey badge exactly for statuses other than Active, Inactive and Pending |
| ProspectsTable.FetchParams | src/components/ProspectsTable.tsx:70-76 | the page comes first, followed by the filters |
| ProspectsTable.GetFilter | src/components/ProspectsTable.tsx:72-75 | each filter reads back as sent, or as missing when it was "" |
| ProspectsTable.ParamsReadBack | src/components/ProspectsTable.tsx:70-76 | the handler reads exactly the page and filters the table sent |
| ProspectsTable.Fetch | src/components/ProspectsTable.tsx:66-94 | a listed reply replaces the rows and the pagination with the handler's; any other reply keeps both |
| ProspectsTable.PagerAfterFetch | src/components/ProspectsTable.tsx:364-406 | after fetching an existing page, every page the pager asks for exists |
| ProspectsTable.CallStatusColor | src/components/ProspectsTable.tsx:156-171 | the grey badge exactly for "Not Called" and unknown call statuses |
| ProspectsTable.ProspectStatusColor | src/components/ProspectsTable.tsx:173-188 | the grey badge exactly for statuses other than the five prospect statuses |
| ProspectTable.MatchFrom | src/components/ProspectTable.tsx:120-122 | `INDUSTRIES.find` ignoring case: the first position whose name has the same lower case, or none |
| ProspectTable.DisplayIndustry | src/components/ProspectTable.tsx:118-124 | "" for a missing or empty industry; otherwise the first listed name that matches ignoring case, else the stored text |
| ProspectTable.DisplayIdempotent | src/components/ProspectTable.tsx:118-124 | mapping a shown industry again changes nothing |
| ProspectTable.PickedIndustryRedisplayed | src/components/ProspectTable.tsx:118-124 | a listed industry sent in lower case is shown again as the listed name |
| ProspectTable.Preferred | src/components/ProspectTable.tsx:128-137 | `snake ?? camel ?? ""`: the snake_case key whenever present, even as "", then the camelCase key, then "" |
| ProspectTable.MapServerToProspect | src/components/ProspectTable.tsx:126-155 | each field is taken from the snake_case key, then the camelCase key; the industry keeps its lower case; the update date and email fall back to missing |
| ProspectTable.InsertedRowShown | src/components/ProspectTable.tsx:126-155 | a row with exactly the keys the create handler inserts shows its stored name, contact, number, call status and email; its status, remark and date added show as "" because the handler stores no such keys; saving it sends the statuses it was created with |
| ProspectTable.FetchParams | src/components/ProspectTable.tsx:163-177 | the page comes first, followed by the filters |
| ProspectTable.GetFilter | src/components/ProspectTable.tsx:172-176 | the search reads back trimmed and only when non-blank; the industry in lower case unless "all"; the call status unless "all"; never a prospect status |
| ProspectTable.ServerReadsFilters | src/components/ProspectTable.tsx:163-177 | the prospects handler reads the page, the trimmed search, the lower-case industry and the call status, and always an empty prospect status |
| ProspectTable.RefreshRequests | src/components/ProspectTable.tsx:214-218 | a refresh sends its own page-1 query with the filters from before the reset, and a second, reset query exactly when some filter changed; the last query sent always uses the reset filters |
| ProspectTable.RefreshPageIsFirst | src/components/ProspectTable.tsx:238-245 | every query a refresh sends is read by the list handler as page 1 |
| ProspectTable.RefreshFetchesFirstPage | src/components/ProspectTable.tsx:214-245 | the query built from the reset filters, the last one a refresh sends, is the bare first page, read as the unfiltered first page |
| ProspectTable.RefreshSendsOldSearch | src/components/ProspectTable.tsx:238-245 | with a search typed, the refresh's own query still carries that search, and the reset query follows it |
| ProspectTable.Payload | src/components/ProspectTable.tsx:252-268 | three fields trimmed; the industry in lower case; call status and status never empty and kept when set; remark and email passed through; an empty date added left out |
| ProspectTable.HandleUpdate | src/components/ProspectTable.tsx:252-273 | no request without a selected row; otherwise the payload goes to the selected row's id |
| ProspectTable.PayloadStable | src/components/ProspectTable.tsx:256-268 | a row carrying its own payload's values builds the same payload again |
| ProspectTable.EditSelected | src/components/ProspectTable.tsx:509-627 | an edit without a selected row does nothing; otherwise it sets exactly its own field to the text given and keeps every other field |
| ProspectTable.Fetch | src/components/ProspectTable.tsx:163-213 | rows are mapped one by one and the fetched page becomes current; a bad body or an error empties the table, forgets the page count and keeps the page |

## Left out

- Datastore execution: the `or`/`ilike`/`eq` filters, ranges and inserts are recorded as plans; which rows they select is decided by the datastore.
- Timestamps from the clock (`created_at`, `updated_at`) are not part of the inserted rows.
- Percent-encoding of query strings: a value is read back exactly as written.
- `Number(item.id)` in the prospect table: the id is kept as the server's text.
- `parseInt` beyond 2^53 and JavaScript number precision: integers are unbounded.
- `toLowerCase` outside ASCII.
- date-fns `format` and `new Date(...)` of anything but a `yyyy-MM-dd` date value; the date filter is taken as already formatted.
- `fetch`, axios, toasts, loading flags, React rendering and events (`prospect:added`).
- The PUT and DELETE handlers under `[id]` (not part of this model), and the delete buttons that call them.
- The list of industries is a parameter; its contents live in a file that is not part of this model.
- The prospect record used by the edit-prospect dialog comes from a type file that does not define it; its fields are taken from how the dialog uses them.
- Decimal.ParseInt: carries no contract of its own; its behaviour is stated by the lemmas about it.
- Middleware.Handle: the matcher is modelled as `/dashboard` or a path below it; the framework's handling of trailing slashes, locales and internal data routes is not modelled.
- ProspectTable.RefreshRequests: lists the queries in the order they are sent; the two axios replies race, and which one sets the rows is not modelled.
- ProspectTable.FetchParams: the date filter value is not checked against the `yyyy-MM-dd` shape.

=== FILE: add_company_dialog.dfy ===
/** The add-company dialog: its form state, the edits the inputs make to
    it, the body it posts, and what it does with the reply. */
module AddCompanyDialog {
  import opened Text
  import opened Nullable
  import opened Formats
  import opened Validation
  import opened ContactNumber
  import opened Records
  import CompaniesApi
  import Session

  /** The form when the dialog is created and after a successful submit. */
  const EmptyForm := CompanyForm("", "", "", "", "")

  /** One change made through the form's inputs. */
  datatype Edit =
    | CompanyNameTyped(text: string)
    | ClientNameTyped(text: string)
    | ContactNumberTyped(text: string)
    | EmailTyped(text: string)
    | IndustryPicked(text: string)

  /** A contact number the input can hold: digits only, at most twelve. */
  predicate CleanNumber(s: string) {
    AllDigits(s) && |s| <= MaxDigits
  }

  /** `setFormData({ ...formData, key: value })`; the contact number goes
      through the sanitiser first. */
  function Apply(f: CompanyForm, e: Edit): (g: CompanyForm)
    ensures e.CompanyNameTyped? ==> g == f.(company_name := e.text)
    ensures e.ClientNameTyped? ==> g == f.(client_name := e.text)
    ensures e.ContactNumberTyped? ==> g == f.(contact_number := Sanitize(e.text))
    ensures e.EmailTyped? ==> g == f.(email_address := e.text)
    ensures e.IndustryPicked? ==> g == f.(industry := e.text)
    ensures !e.ContactNumberTyped? ==> g.contact_number == f.contact_number
    ensures CleanNumber(g.contact_number) || g.contact_number == f.contact_number
  {
    match e
    case CompanyNameTyped(t) => f.(company_name := t)
    case ClientNameTyped(t) => f.(client_name := t)
    case ContactNumberTyped(t) => f.(contact_number := Sanitize(t))
    case EmailTyped(t) => f.(email_address := t)
    case IndustryPicked(t) => f.(industry := t)
  }

  /** The form after a series of edits, applied in order. */
  function ApplyAll(f: CompanyForm, es: seq<Edit>): CompanyForm
    decreases |es|
  {
    if es == [] then f else ApplyAll(Apply(f, es[0]), es[1..])
  }

  /** Every form the dialog can reach from the empty form holds a clean
      contact number: the input never shows anything but digits, and never
      more than twelve. */
  lemma {:induction false} NumberStaysClean(f: CompanyForm, es: seq<Edit>)
    requires CleanNumber(f.contact_number)
    ensures CleanNumber(ApplyAll(f, es).contact_number)
    decreases |es|
  {
    if es != [] {
      NumberStaysClean(Apply(f, es[0]), es[1..]);
    }
  }

  /** `JSON.stringify(formData)`: every key is sent, as a string. */
  function RequestBody(f: CompanyForm): (b: CompaniesApi.CompanyBody)
    ensures b.company_name == Str(f.company_name) && b.client_name == Str(f.client_name)
    ensures b.contact_number == Str(f.contact_number) && b.email_address == Str(f.email_address)
    ensures b.industry == Str(f.industry)
  {
    CompaniesApi.CompanyBody(Str(f.company_name), Str(f.client_name), Str(f.contact_number),
                             Str(f.email_address), Str(f.industry))
  }

  /** A signed-in submit of a form the dialog reached is accepted exactly
      when no text field is blank, the number has all twelve digits and
      starts "09", and the email has the accepted shape. */
  lemma SubmitAccepted(f: CompanyForm)
    requires CleanNumber(f.contact_number)
    ensures CompaniesApi.Create(Some(Session.AuthCookieValue), Some(RequestBody(f))).Accepted?
            <==> && !AllSpace(f.company_name) && !AllSpace(f.client_name)
                 && |f.contact_number| == MaxDigits
                 && f.contact_number[0] == '0' && f.contact_number[1] == '9'
                 && IsEmail(f.email_address) && !AllSpace(f.industry)
  {
    var b := RequestBody(f);
    assert CompaniesApi.Create(Some(Session.AuthCookieValue), Some(b)).Accepted?
           <==> CompaniesApi.WellFormed(b);
    CleanIsPhone(f.contact_number);
  }

  /** For a clean number the phone check is a matter of length and the
      first two digits. */
  lemma CleanIsPhone(n: string)
    requires CleanNumber(n)
    ensures IsPhone(n) <==> |n| == MaxDigits && n[0] == '0' && n[1] == '9'
    ensures |n| == MaxDigits ==> !AllSpace(n)
  {
    if |n| == MaxDigits {
      assert IsDigit(n[0]);
    }
  }

  /** The reply of the create handler as the dialog sees it: `res.ok` for
      201, else the `error` text of the body. */
  function ReplyOf<R>(r: PostResponse<R>): (reply: Reply)
    ensures reply.ok <==> r.Created?
    ensures !reply.ok ==> reply.error == Some(r.error.message)
  {
    if r.Created? then Reply(true, None) else Reply(false, Some(r.error.message))
  }

  /** The dialog's state: whether it is open, the form, and the last toast. */
  datatype DialogState = DialogState(open: bool, form: CompanyForm, toast: string)

  const AddedToast := "Company added successfully"
  const AddFailedToast := "Failed to add company"

  /** `handleSubmit` after the reply: on success the form is cleared and
      the dialog closed; on failure the form is kept, still open, and the
      error shown. */
  function AfterSubmit(s: DialogState, reply: Reply): (t: DialogState)
    ensures reply.ok ==> t == DialogState(false, EmptyForm, AddedToast)
    ensures !reply.ok ==> t.open == s.open && t.form == s.form
    ensures !reply.ok ==> t.toast == FailureText(reply, AddFailedToast)
  {
    if reply.ok then DialogState(false, EmptyForm, AddedToast)
    else s.(toast := FailureText(reply, AddFailedToast))
  }

  /** A number one digit short is refused by the server with the phone
      message, which the dialog shows while keeping what was typed. */
  lemma ShortNumberShowsPhoneMessage(s: DialogState, outcome: InsertOutcome<CompaniesApi.NewCompany>)
    requires !AllSpace(s.form.company_name) && !AllSpace(s.form.client_name)
    requires !AllSpace(s.form.email_address) && !AllSpace(s.form.industry)
    requires CleanNumber(s.form.contact_number) && |s.form.contact_number| == 11
    ensures var r := Respond(CompaniesApi.Create(Some(Session.AuthCookieValue), Some(RequestBody(s.form))), outcome);
            AfterSubmit(s, ReplyOf(r)) == s.(toast := PhoneMessage)
  {
    var b := RequestBody(s.form);
    assert s.form.contact_number[0] == b.contact_number.text[0];
    CompaniesApi.PhoneFormatReported(Some(Session.AuthCookieValue), b);
  }
}

=== FILE: companies_api.dfy ===
/** The companies collection endpoint: the list handler (GET) and the
    create handler (POST). */
module CompaniesApi {
  import opened Text
  import opened Nullable
  import opened Formats
  import opened Validation
  import opened QueryParams
  import opened Paging
  import opened Listing
  import Session

  // ---------------------------------------------------------------- create

  /** The keys the create handler destructures from the JSON body. */
  datatype CompanyBody = CompanyBody(company_name: Field, client_name: Field,
                                     contact_number: Field, email_address: Field,
                                     industry: Field)

  /** The row the create handler inserts (its two timestamps left out). */
  datatype NewCompany = NewCompany(company_name: string, client_name: string,
                                   contact_number: string, email_address: string,
                                   industry: string, remarks: Option<string>,
                                   to_do: Option<string>, status: string)

  const ClientNameRequired := "Client name is required"

  /** The handler's chain of `if (...) return` steps, in its order: it
      passes exactly when the five required fields are filled and the phone
      and the email have the accepted formats. */
  function Validate(b: CompanyBody): (v: Verdict)
    ensures v == Pass <==> WellFormed(b)
    ensures v == Throw ==> exists f :: f in RequiredFields(b) && f.Other?
  {
    Then(RequireText(b.company_name, CompanyNameRequired),
    Then(RequireText(b.client_name, ClientNameRequired),
    Then(RequireText(b.contact_number, ContactNumberRequired),
    Then(RequireText(b.email_address, EmailRequired),
    Then(RequireText(b.industry, IndustryRequired),
    Then(RequirePhone(b.contact_number),
         RequireEmail(b.email_address)))))))
  }

  /** The seven checks, in the order the handler runs them. */
  function Checks(b: CompanyBody): seq<Verdict> {
    [ RequireText(b.company_name, CompanyNameRequired),
      RequireText(b.client_name, ClientNameRequired),
      RequireText(b.contact_number, ContactNumberRequired),
      RequireText(b.email_address, EmailRequired),
      RequireText(b.industry, IndustryRequired),
      RequirePhone(b.contact_number),
      RequireEmail(b.email_address) ]
  }

  /** The handler's chain reports the first of its checks that fails. */
  lemma ValidateIsFirstFailure(b: CompanyBody)
    ensures Validate(b) == FirstFailure(Checks(b))
  {
    var cs := Checks(b);
    assert FirstFailureFrom(cs, 6) == cs[6];
    assert FirstFailureFrom(cs, 5) == Then(cs[5], cs[6]);
    assert FirstFailureFrom(cs, 4) == Then(cs[4], Then(cs[5], cs[6]));
    assert FirstFailureFrom(cs, 3) == Then(cs[3], Then(cs[4], Then(cs[5], cs[6])));
    assert FirstFailureFrom(cs, 2) == Then(cs[2], Then(cs[3], Then(cs[4], Then(cs[5], cs[6]))));
    assert FirstFailureFrom(cs, 1) == Then(cs[1], Then(cs[2], Then(cs[3], Then(cs[4], Then(cs[5], cs[6])))));
  }

  /** The five fields the "required" checks look at, in order. */
  function RequiredFields(b: CompanyBody): seq<Field> {
    [b.company_name, b.client_name, b.contact_number, b.email_address, b.industry]
  }

  /** A body that passes the seven checks, stated field by field. */
  predicate WellFormed(b: CompanyBody) {
    && Filled(b.company_name) && Filled(b.client_name) && Filled(b.contact_number)
    && Filled(b.email_address) && Filled(b.industry)
    && IsPhone(b.contact_number.text) && IsEmail(b.email_address.text)
  }

  /** What every inserted company satisfies: trimmed non-empty text fields,
      a phone and an email in the accepted formats, and the defaults of a
      new company. */
  predicate StoredCompany(c: NewCompany) {
    && c.company_name != [] && Trimmed(c.company_name)
    && c.client_name != [] && Trimmed(c.client_name)
    && c.industry != [] && Trimmed(c.industry)
    && IsPhone(c.contact_number) && IsEmail(c.email_address)
    && c.remarks.None? && c.to_do.None? && c.status == "Active"
  }

  /** The row built from a well-formed body. */
  function Row(b: CompanyBody): (c: NewCompany)
    requires WellFormed(b)
    ensures StoredCompany(c)
    ensures && c.company_name == Trim(b.company_name.text)
            && c.client_name == Trim(b.client_name.text)
            && c.contact_number == b.contact_number.text
            && c.email_address == b.email_address.text
            && c.industry == Trim(b.industry.text)
  {
    var phone := b.contact_number.text;
    var email := b.email_address.text;
    AcceptedValuesAreTrimmed(phone);
    AcceptedValuesAreTrimmed(email);
    NewCompany(Trim(b.company_name.text), Trim(b.client_name.text),
               Trim(phone), Trim(email), Trim(b.industry.text), None, None, "Active")
  }

  /** The create decision: 401 before anything else, 500 for a body that
      is not JSON or is null, the first failed check, else the row to insert.
      A JSON value that is not an object has none of the fields, so it
      fails the first check. */
  function Create(authCookie: Option<string>, body: Option<CompanyBody>): (r: Checked<NewCompany>)
    ensures !Session.CheckAuth(authCookie) ==> r == Rejected(Unauthorized)
    ensures Session.CheckAuth(authCookie) && body.None? ==> r == Rejected(InternalError)
    ensures r.Accepted? <==> Session.CheckAuth(authCookie) && body.Some? && WellFormed(body.value)
    ensures r.Accepted? ==> r.row == Row(body.value)
  {
    if !Session.CheckAuth(authCookie) then Rejected(Unauthorized)
    else if body.None? then Rejected(InternalError)
    else
      var b := body.value;
      var v := Validate(b);
      if v != Pass then Rejected(ToError(v))
      else
        Accepted(Row(b))
  }

  /** The error reported is that of the first check, in handler order,
      that does not pass; nothing after it is looked at. */
  lemma ReportsFirstFailedCheck(authCookie: Option<string>, b: CompanyBody, i: nat)
    requires Session.CheckAuth(authCookie)
    requires i < 7 && Checks(b)[i] != Pass
    requires forall j :: 0 <= j < i ==> Checks(b)[j] == Pass
    ensures Create(authCookie, Some(b)) == Rejected(ToError(Checks(b)[i]))
  {
    ValidateIsFirstFailure(b);
    FirstFailureAt(Checks(b), i);
  }

  /** Once the five required fields are filled, a contact number outside
      the accepted format is what gets reported. */
  lemma PhoneFormatReported(authCookie: Option<string>, b: CompanyBody)
    requires Session.CheckAuth(authCookie)
    requires Filled(b.company_name) && Filled(b.client_name) && Filled(b.contact_number)
    requires Filled(b.email_address) && Filled(b.industry)
    requires !IsPhone(b.contact_number.text)
    ensures Create(authCookie, Some(b)) == Rejected(ApiError(400, PhoneMessage))
  {
    FilledPasses(b.company_name, CompanyNameRequired);
    FilledPasses(b.client_name, ClientNameRequired);
    FilledPasses(b.contact_number, ContactNumberRequired);
    FilledPasses(b.email_address, EmailRequired);
    FilledPasses(b.industry, IndustryRequired);
  }

  /** A missing client name is reported as such once the company name is
      filled, whatever the other fields hold. */
  lemma MissingClientNameReported(authCookie: Option<string>, b: CompanyBody)
    requires Session.CheckAuth(authCookie)
    requires Filled(b.company_name) && b.client_name.Absent?
    ensures Create(authCookie, Some(b)) == Rejected(ApiError(400, ClientNameRequired))
  {
    FilledPasses(b.company_name, CompanyNameRequired);
  }

  // ------------------------------------------------------------------ list

  /** The query parameters the list handler reads, each `|| ""`; the page is
      parsed with `parseInt` (None is NaN). */
  datatype CompanyQuery = CompanyQuery(page: Option<int>, search: string, industry: string,
                                       status: string)

  function ReadQuery(ps: Params): (q: CompanyQuery)
    ensures q.search == GetOrEmpty(ps, "search") && q.industry == GetOrEmpty(ps, "industry")
    ensures q.status == GetOrEmpty(ps, "status")
    ensures q.page == ReadPage(ps)
  {
    CompanyQuery(ReadPage(ps), GetOrEmpty(ps, "search"), GetOrEmpty(ps, "industry"),
                 GetOrEmpty(ps, "status"))
  }

  /** The `or(...)` filter text exactly as the handler writes it; what it
      selects is decided by the datastore. */
  function SearchFilter(search: string): string {
    "company_name. ilike. %" + search + "%,client_name.ilike.%" + search + "%"
  }

  /** The datastore query for a list request. */
  function Plan(q: CompanyQuery): (p: ListPlan)
    ensures p.window == PlanWindow(q.page)
    ensures p.orFilter.Some? <==> q.search != []
    ensures p.orFilter.Some? ==> p.orFilter.value == SearchFilter(q.search)
    ensures forall k :: 0 <= k < |p.equals| ==> p.equals[k].1 != []
    ensures ("industry", q.industry) in p.equals <==> q.industry != []
    ensures ("status", q.status) in p.equals <==> q.status != []
    ensures forall e :: e in p.equals ==> e == ("industry", q.industry) || e == ("status", q.status)
    ensures forall i, j :: 0 <= i < j < |p.equals| ==> p.equals[i].0 != p.equals[j].0
    ensures |p.equals| <= 2
  {
    ListPlan(PlanWindow(q.page),
             if q.search != [] then Some(SearchFilter(q.search)) else None,
             EqWhen("industry", q.industry) + EqWhen("status", q.status))
  }

  /** The list handler. */
  function List<R>(authCookie: Option<string>, ps: Params, outcome: ListOutcome<R>): (x: ListExchange<R>)
    ensures !Session.CheckAuth(authCookie) ==> x.plan.None? && x.response == ListRejected(Unauthorized)
    ensures Session.CheckAuth(authCookie) ==> x.plan == Some(Plan(ReadQuery(ps)))
    ensures Session.CheckAuth(authCookie) ==> x.response == RespondList(ReadPage(ps), outcome)
    ensures x.response.ListOk? ==> && outcome.Listed?
                                   && x.response.pagination.page == ReadPage(ps)
                                   && x.response.pagination.totalPages == TotalPages(outcome.count)
                                   && x.response.pagination.pageSize == PageSize
  {
    var q := ReadQuery(ps);
    GatedList(authCookie, q.page, Plan(q), outcome)
  }
}

=== FILE: companies_table.dfy ===
/** The companies table: the query string it sends for a page, what it
    keeps from the list handler's reply, and the status badge colours. */
module CompaniesTable {
  import opened Nullable
  import opened Decimal
  import opened QueryParams
  import opened Paging
  import opened Listing
  import opened Records
  import CompaniesApi
  import Session

  /** The three filter inputs, "" when unset. */
  datatype Filters = Filters(search: string, industry: string, status: string)

  const NoFilters := Filters("", "", "")

  /** The conditional part of the query: `...(search && { search })` and
      the same for industry and status, each present only when not "". */
  function FilterParams(f: Filters): (ps: Params)
    ensures forall k :: 0 <= k < |ps| ==> ps[k].1 != []
  {
    When(f.search != [], "search", f.search) + When(f.industry != [], "industry", f.industry)
      + When(f.status != [], "status", f.status)
  }

  /** `new URLSearchParams({ page: page.toString(), ...filters })`: the page
      always comes first. */
  function FetchParams(page: int, f: Filters): (ps: Params)
    ensures |ps| >= 1 && ps[0] == ("page", IntToString(page))
    ensures ps[1..] == FilterParams(f)
  {
    [("page", IntToString(page))] + FilterParams(f)
  }

  /** Each filter is read back as sent, or as missing when it was "". */
  lemma GetFilter(f: Filters, key: string)
    ensures key == "search" ==> Get(FilterParams(f), key) == NullIfEmpty(f.search)
    ensures key == "industry" ==> Get(FilterParams(f), key) == NullIfEmpty(f.industry)
    ensures key == "status" ==> Get(FilterParams(f), key) == NullIfEmpty(f.status)
  {
    var a := When(f.search != [], "search", f.search);
    var b := When(f.industry != [], "industry", f.industry);
    var c := When(f.status != [], "status", f.status);
    assert FilterParams(f) == a + (b + c);
    GetConcat(a, b + c, key);
    GetConcat(b, c, key);
    GetWhen(f.search != [], "search", f.search, key);
    GetWhen(f.industry != [], "industry", f.industry, key);
    GetWhen(f.status != [], "status", f.status, key);
  }

  /** A filter key is not "page", so it is looked up among the filters;
      a filter left out reads as "". */
  lemma GetFetchFilter(page: int, f: Filters, key: string, value: string)
    requires key != "page"
    requires Get(FilterParams(f), key) == NullIfEmpty(value)
    ensures GetOrEmpty(FetchParams(page, f), key) == value
  {
    GetConcat([("page", IntToString(page))], FilterParams(f), key);
  }

  /** The list handler reads back exactly what the table sent: the page
      number, and each filter ("" when it was left out). */
  lemma ParamsReadBack(page: int, f: Filters)
    ensures CompaniesApi.ReadQuery(FetchParams(page, f))
            == CompaniesApi.CompanyQuery(Some(page), f.search, f.industry, f.status)
  {
    ReadPageOfWrittenPage(page, FilterParams(f));
    GetFilter(f, "search");
    GetFetchFilter(page, f, "search", f.search);
    GetFilter(f, "industry");
    GetFetchFilter(page, f, "industry", f.industry);
    GetFilter(f, "status");
    GetFetchFilter(page, f, "status", f.status);
  }

  /** The table's data and pagination state, and the last error toast. */
  datatype TableState = TableState(rows: seq<Company>, info: PageInfo, toast: string)

  const InitialState := TableState([], InitialPageInfo, "")

  const FetchFailedToast := "Failed to fetch companies"

  /** `fetchCompanies(page)` against the list handler: on success the rows
      and the returned pagination replace the old ones; on an error reply
      the state is kept and the error shown. */
  function Fetch(s: TableState, authCookie: Option<string>, page: int, f: Filters,
                 outcome: ListOutcome<Company>): (t: TableState)
    ensures outcome.Listed? && Session.CheckAuth(authCookie) ==>
              t.rows == outcome.rows && t.info == PageInfo(page, PageSize, outcome.count, TotalPages(outcome.count))
    ensures !(outcome.Listed? && Session.CheckAuth(authCookie)) ==> t.rows == s.rows && t.info == s.info
  {
    var ps := FetchParams(page, f);
    ReadPageOfWrittenPage(page, FilterParams(f));
    var x := CompaniesApi.List(authCookie, ps, outcome);
    match x.response
    case ListRejected(e) => s.(toast := FailureText(Reply(false, Some(e.message)), FetchFailedToast))
    case ListOk(rows, info) =>
      TableState(rows, PageInfo(info.page.value, info.pageSize, info.total, info.totalPages), s.toast)
  }

  /** After a successful fetch of a page that exists, every page the pager
      can ask for next exists too. */
  lemma PagerAfterFetch(s: TableState, authCookie: Option<string>, page: int, f: Filters,
                        rows: seq<Company>, count: Option<nat>, a: PagerAction)
    requires Session.CheckAuth(authCookie)
    requires 1 <= page <= TotalPages(count)
    ensures var t := Fetch(s, authCookie, page, f, Listed(rows, count));
            Request(t.info, a).Some? ==> 1 <= Request(t.info, a).value <= TotalPages(count)
  {
    var t := Fetch(s, authCookie, page, f, Listed(rows, count));
    RequestsStayInRange(t.info, a);
  }

  const Grey := "bg-gray-100 text-gray-800"

  /** `getStatusColor`: the badge classes of the three statuses, grey for
      anything else. */
  function StatusColor(status: string): (cls: string)
    ensures cls == Grey <==> status !in {"Active", "Inactive", "Pending"}
  {
    match status
    case "Active" => "bg-green-100 text-green-800"
    case "Inactive" => "bg-red-100 text-red-800"
    case "Pending" => "bg-yellow-100 text-yellow-800"
    case _ => Grey
  }

  /** The three known statuses get three different badges, none of them the
      grey default. */
  lemma StatusColorsDistinct()
    ensures StatusColor("Active") != StatusColor("Inactive")
    ensures StatusColor("Active") != StatusColor("Pending")
    ensures StatusColor("Inactive") != StatusColor("Pending")
    ensures forall s :: s in {"Active", "Inactive", "Pending"} ==> StatusColor(s) != StatusColor("")
  {
  }
}

=== FILE: contact_number.dfy ===
/** The contact-number sanitiser of the three dialogs:
    `value.replace(/\D/g, "").slice(0, 12)`. */
module ContactNumber {
  import opened Text
  import opened Formats

  /** The longest number the input keeps: "09" and ten more digits. */
  const MaxDigits := 12

  /** `s[..k].replace(/\D/g, "")`: the ASCII digits among the first `k`
      characters, in order. */
  function DigitsUpTo(s: string, k: nat): (d: string)
    requires k <= |s|
    ensures |d| <= k && AllDigits(d)
    decreases k
  {
    if k == 0 then []
    else DigitsUpTo(s, k - 1) + (if IsDigit(s[k - 1]) then [s[k - 1]] else [])
  }

  /** `s.replace(/\D/g, "")`: every character that is not an ASCII digit
      is removed. */
  function Digits(s: string): (d: string)
    ensures |d| <= |s| && AllDigits(d)
  {
    DigitsUpTo(s, |s|)
  }

  /** The sanitised value: the digits of the input, cut to the first
      twelve (`slice(0, 12)` keeps all of a shorter string). */
  function Sanitize(s: string): (r: string)
    ensures AllDigits(r)
    ensures |r| == if |Digits(s)| <= MaxDigits then |Digits(s)| else MaxDigits
    ensures forall i :: 0 <= i < |r| ==> r[i] == Digits(s)[i]
  {
    var d := Digits(s);
    if |d| <= MaxDigits then d else d[..MaxDigits]
  }

  /** Removing the non-digits leaves a string of digits alone. */
  lemma {:induction false} DigitsUpToOfDigits(s: string, k: nat)
    requires k <= |s| && AllDigits(s)
    ensures DigitsUpTo(s, k) == s[..k]
    decreases k
  {
    if k > 0 {
      DigitsUpToOfDigits(s, k - 1);
      assert s[..k] == s[..k - 1] + [s[k - 1]];
    }
  }

  lemma DigitsOfDigits(s: string)
    requires AllDigits(s)
    ensures Digits(s) == s
  {
    DigitsUpToOfDigits(s, |s|);
  }

  /** The digits of a concatenation are the digits of each part, in order:
      together with the one-character cases this pins the filter down. */
  lemma {:induction false} DigitsUpToAppend(a: string, b: string, k: nat)
    requires k <= |b|
    ensures DigitsUpTo(a + b, |a| + k) == Digits(a) + DigitsUpTo(b, k)
    decreases k
  {
    if k == 0 {
      DigitsUpToPrefix(a + b, a, |a|);
    } else {
      DigitsUpToAppend(a, b, k - 1);
      assert (a + b)[|a| + k - 1] == b[k - 1];
    }
  }

  /** The digits among the first `k` characters only depend on those. */
  lemma {:induction false} DigitsUpToPrefix(s: string, p: string, k: nat)
    requires k <= |p| <= |s|
    requires forall i :: 0 <= i < |p| ==> s[i] == p[i]
    ensures DigitsUpTo(s, k) == DigitsUpTo(p, k)
    decreases k
  {
    if k > 0 {
      DigitsUpToPrefix(s, p, k - 1);
    }
  }

  lemma DigitsAppend(a: string, b: string)
    ensures Digits(a + b) == Digits(a) + Digits(b)
  {
    DigitsUpToAppend(a, b, |b|);
  }

  lemma DigitsOfChar(c: char)
    ensures Digits([c]) == if IsDigit(c) then [c] else []
  {
  }

  /** A value that is already twelve digits or fewer is left unchanged. */
  lemma SanitizeClean(s: string)
    requires AllDigits(s) && |s| <= MaxDigits
    ensures Sanitize(s) == s
  {
    DigitsOfDigits(s);
  }

  /** Sanitising twice is sanitising once. */
  lemma SanitizeIdempotent(s: string)
    ensures Sanitize(Sanitize(s)) == Sanitize(s)
  {
    SanitizeClean(Sanitize(s));
  }

  /** Every number the phone check accepts survives the sanitiser. */
  lemma SanitizeKeepsPhone(s: string)
    requires IsPhone(s)
    ensures Sanitize(s) == s
  {
    SanitizeClean(s);
  }

  /** A sanitised value is accepted by the server's phone check exactly when
      twelve digits were kept and they start with "09". */
  lemma SanitizedPhone(s: string)
    ensures IsPhone(Sanitize(s))
            <==> |Digits(s)| >= MaxDigits && Digits(s)[0] == '0' && Digits(s)[1] == '9'
  {
  }

  /** Typing or pasting text after a sanitised value keeps that value as
      the start of the new one. */
  lemma SanitizeExtends(s: string, typed: string)
    ensures |Sanitize(s)| <= |Sanitize(Sanitize(s) + typed)|
    ensures forall i :: 0 <= i < |Sanitize(s)| ==> Sanitize(Sanitize(s) + typed)[i] == Sanitize(s)[i]
  {
    var r := Sanitize(s);
    DigitsAppend(r, typed);
    DigitsOfDigits(r);
  }

  /** A dash is dropped and the digits after the twelfth are cut off:
      "0917-1234567890" becomes "091712345678". */
  lemma SampleSanitize()
    ensures Sanitize("0917-1234567890") == "091712345678"
  {
    var a, b := "0917", "1234567890";
    DigitsAppend(a, "-");
    DigitsAppend(a + "-", b);
    DigitsOfDigits(a);
    DigitsOfDigits(b);
    DigitsOfChar('-');
    assert "0917-1234567890" == a + "-" + b;
  }
}

=== FILE: decimal.dfy ===
/** Decimal text for integers: `Number.prototype.toString()` on an integer and
    `parseInt(text, 10)`, with NaN represented by `None`. */
module Decimal {
  import opened Text
  import opened Nullable

  function DigitValue(c: char): (d: nat)
    requires IsDigit(c)
    ensures d < 10
  {
    c as int - '0' as int
  }

  function DigitChar(d: nat): (c: char)
    requires d < 10
    ensures IsDigit(c) && DigitValue(c) == d
  {
    (d + '0' as int) as char
  }

  /** The value of the digits `s[b..e]`, most significant first. */
  function DigitsValue(s: string, b: nat, e: nat): nat
    requires b <= e <= |s|
    requires forall i :: b <= i < e ==> IsDigit(s[i])
    decreases e
  {
    if e == b then 0 else DigitsValue(s, b, e - 1) * 10 + DigitValue(s[e - 1])
  }

  /** Decimal digits of a natural number without leading zeros. */
  function NatToString(n: nat): (s: string)
    ensures |s| > 0 && AllDigits(s)
    ensures s[0] == '0' ==> n == 0
  {
    if n < 10 then [DigitChar(n)] else NatToString(n / 10) + [DigitChar(n % 10)]
  }

  /** `String(n)` for an integer `n`. */
  function IntToString(n: int): (s: string)
    ensures |s| > 0
    ensures s[0] == '-' <==> n < 0
  {
    if n < 0 then "-" + NatToString(-n) else NatToString(n)
  }

  /** The end of the run of digits that starts at position `k`. */
  function DigitsEnd(s: string, k: nat): (j: nat)
    requires k <= |s|
    ensures k <= j <= |s|
    ensures forall i :: k <= i < j ==> IsDigit(s[i])
    ensures j == |s| || !IsDigit(s[j])
    decreases |s| - k
  {
    if k < |s| && IsDigit(s[k]) then DigitsEnd(s, k + 1) else k
  }

  /** `parseInt(s, 10)`: leading whitespace is skipped, one sign is allowed,
      then the longest run of digits is read and the rest ignored; no digit at
      all gives NaN (`None`). */
  function ParseInt(s: string): Option<int> {
    ParseFrom(s, SkipSpace(s, 0))
  }

  /** The sign and digits of `parseInt`, read from position `a` on. */
  function ParseFrom(s: string, a: nat): Option<int>
    requires a <= |s|
  {
    var signed := a < |s| && (s[a] == '+' || s[a] == '-');
    var b := if signed then a + 1 else a;
    var e := DigitsEnd(s, b);
    if e == b then None
    else
      var v: int := DigitsValue(s, b, e);
      Some(if a < |s| && s[a] == '-' then -v else v)
  }

  /** Reading back the digits written for `n` gives `n`. */
  lemma {:induction false} NatToStringValue(n: nat)
    ensures DigitsValue(NatToString(n), 0, |NatToString(n)|) == n
  {
    var s := NatToString(n);
    if n >= 10 {
      var p := NatToString(n / 10);
      NatToStringValue(n / 10);
      DigitsValueOfPrefix(s, p, |p|);
    }
  }

  /** The value of a prefix run of digits depends only on that prefix. */
  lemma {:induction false} DigitsValueOfPrefix(s: string, p: string, e: nat)
    requires e <= |p| <= |s| && AllDigits(p)
    requires forall i :: 0 <= i < |p| ==> s[i] == p[i]
    ensures DigitsValue(s, 0, e) == DigitsValue(p, 0, e)
    decreases e
  {
    if e > 0 {
      DigitsValueOfPrefix(s, p, e - 1);
    }
  }

  /** The value of a run of digits does not depend on where it sits. */
  lemma {:induction false} DigitsValueShift(t: string, s: string, w: nat, b: nat, e: nat)
    requires w + |s| <= |t| && b <= e <= |s|
    requires forall i :: w <= i < w + |s| ==> t[i] == s[i - w]
    requires forall i :: b <= i < e ==> IsDigit(s[i])
    ensures forall i :: w + b <= i < w + e ==> IsDigit(t[i])
    ensures DigitsValue(t, w + b, w + e) == DigitsValue(s, b, e)
    decreases e
  {
    assert forall i :: w + b <= i < w + e ==> t[i] == s[i - w];
    if e > b {
      DigitsValueShift(t, s, w, b, e - 1);
    }
  }

  /** `DigitsEnd` finds the end of any maximal run of digits. */
  lemma {:induction false} DigitsEndOfRun(s: string, k: nat, j: nat)
    requires k <= j <= |s|
    requires forall i :: k <= i < j ==> IsDigit(s[i])
    requires j == |s| || !IsDigit(s[j])
    ensures DigitsEnd(s, k) == j
    decreases j - k
  {
    if k < j {
      DigitsEndOfRun(s, k + 1, j);
    }
  }

  /** `SkipSpace` finds the end of any maximal run of whitespace. */
  lemma {:induction false} SkipSpaceOfRun(s: string, k: nat, j: nat)
    requires k <= j <= |s|
    requires forall i :: k <= i < j ==> IsSpace(s[i])
    requires j == |s| || !IsSpace(s[j])
    ensures SkipSpace(s, k) == j
    decreases j - k
  {
    if k < j {
      SkipSpaceOfRun(s, k + 1, j);
    }
  }

  /** Text in front does not change a run of digits or its value. */
  lemma DigitsAfter(p: string, x: string, k: nat)
    requires k <= |x|
    ensures DigitsEnd(p + x, |p| + k) == |p| + DigitsEnd(x, k)
    ensures DigitsValue(p + x, |p| + k, |p| + DigitsEnd(x, k)) == DigitsValue(x, k, DigitsEnd(x, k))
  {
    var t, w, e := p + x, |p|, DigitsEnd(x, k);
    assert forall i :: w <= i < w + |x| ==> t[i] == x[i - w];
    DigitsValueShift(t, x, w, k, e);
    assert w + e < |t| ==> t[w + e] == x[e];
    DigitsEndOfRun(t, w + k, w + e);
  }

  /** Text that does not start with whitespace is read from its start. */
  lemma ParseIntFromStart(s: string)
    requires s == [] || !IsSpace(s[0])
    ensures ParseInt(s) == ParseFrom(s, 0)
  {
    SkipSpaceOfRun(s, 0, 0);
  }

  /** A run of digits reads as its value. */
  lemma ParseFromDigits(d: string)
    requires |d| > 0 && AllDigits(d)
    ensures ParseFrom(d, 0) == Some(DigitsValue(d, 0, |d|))
  {
    DigitsEndOfRun(d, 0, |d|);
  }

  /** A minus sign and a run of digits read as the negated value. */
  lemma ParseFromNegativeDigits(d: string)
    requires |d| > 0 && AllDigits(d)
    ensures ParseFrom("-" + d, 0) == Some(0 - DigitsValue(d, 0, |d|))
  {
    DigitsEndOfRun(d, 0, |d|);
    DigitsAfter("-", d, 0);
  }

  /** `parseInt(String(n), 10) === n` for every integer `n`. */
  lemma ParseIntOfIntToString(n: int)
    ensures ParseInt(IntToString(n)) == Some(n)
  {
    var m: nat := if n < 0 then -n else n;
    var d := NatToString(m);
    NatToStringValue(m);
    ParseIntFromStart(IntToString(n));
    if n < 0 {
      ParseFromNegativeDigits(d);
    } else {
      ParseFromDigits(d);
    }
  }

  /** Text that is all whitespace reads as NaN. */
  lemma ParseIntOfBlank(ws: string)
    requires AllSpace(ws)
    ensures ParseInt(ws).None?
  {
    SkipSpaceOfRun(ws, 0, |ws|);
  }

  /** After the whitespace and the optional sign, a character that is not a
      digit makes the result NaN: `parseInt("abc")`, `parseInt(" -x")`. */
  lemma ParseIntOfNonDigit(ws: string, sign: string, c: char, rest: string)
    requires AllSpace(ws) && (sign == [] || sign == "+" || sign == "-")
    requires !IsSpace(c) && !IsDigit(c) && (sign == [] ==> c != '+' && c != '-')
    ensures ParseInt(ws + sign + [c] + rest).None?
  {
    var s := ws + sign + [c] + rest;
    var w := |ws|;
    assert s[w + |sign|] == c;
    assert sign != [] ==> s[w] == sign[0];
    SkipSpaceOfRun(s, 0, w);
  }
}

=== FILE: edit_company_dialog.dfy ===
/** The edit-company dialog: a form that starts as a copy of the company
    (`useState<Company>(company)`) and that its inputs change one field at
    a time. */
module EditCompanyDialog {
  import opened Text
  import opened Nullable
  import opened ContactNumber
  import opened Records

  /** One change made through the dialog's inputs. */
  datatype Edit =
    | CompanyNameTyped(text: string)
    | ClientNameTyped(text: string)
    | ContactNumberTyped(text: string)
    | EmailTyped(text: string)
    | IndustryPicked(text: string)
    | StatusPicked(text: string)
    | RemarksTyped(text: string)
    | ToDoTyped(text: string)

  /** `setFormData({ ...formData, key: value })`. The contact number goes
      through the sanitiser; remarks and to-do are stored with
      `value || null`, so clearing them stores null. */
  function Apply(f: Company, e: Edit): (g: Company)
    ensures g.id == f.id && g.created_at == f.created_at && g.updated_at == f.updated_at
    ensures e.CompanyNameTyped? ==> g == f.(company_name := e.text)
    ensures e.ClientNameTyped? ==> g == f.(client_name := e.text)
    ensures e.ContactNumberTyped? ==> g == f.(contact_number := Sanitize(e.text))
    ensures e.EmailTyped? ==> g == f.(email_address := e.text)
    ensures e.IndustryPicked? ==> g == f.(industry := e.text)
    ensures e.StatusPicked? ==> g == f.(status := e.text)
    ensures e.RemarksTyped? ==> g == f.(remarks := NullIfEmpty(e.text))
    ensures e.ToDoTyped? ==> g == f.(to_do := NullIfEmpty(e.text))
    ensures !e.RemarksTyped? ==> g.remarks == f.remarks
    ensures !e.ToDoTyped? ==> g.to_do == f.to_do
  {
    match e
    case CompanyNameTyped(t) => f.(company_name := t)
    case ClientNameTyped(t) => f.(client_name := t)
    case ContactNumberTyped(t) => f.(contact_number := Sanitize(t))
    case EmailTyped(t) => f.(email_address := t)
    case IndustryPicked(t) => f.(industry := t)
    case StatusPicked(t) => f.(status := t)
    case RemarksTyped(t) => f.(remarks := NullIfEmpty(t))
    case ToDoTyped(t) => f.(to_do := NullIfEmpty(t))
  }

  /** The form after a series of edits, applied in order. */
  function ApplyAll(f: Company, es: seq<Edit>): Company
    decreases |es|
  {
    if es == [] then f else ApplyAll(Apply(f, es[0]), es[1..])
  }

  /** No edit touches the id or the timestamps: the PUT goes to the
      company that was opened and carries its own timestamps back. */
  lemma {:induction false} IdentityKept(f: Company, es: seq<Edit>)
    ensures ApplyAll(f, es).id == f.id
    ensures ApplyAll(f, es).created_at == f.created_at
    ensures ApplyAll(f, es).updated_at == f.updated_at
    decreases |es|
  {
    if es != [] {
      IdentityKept(Apply(f, es[0]), es[1..]);
    }
  }

  /** Remarks and to-do are never the empty string in the form unless they
      were when it was opened: every edit stores null or non-empty text. */
  predicate NoEmptyNotes(f: Company) {
    (f.remarks.None? || f.remarks.value != []) && (f.to_do.None? || f.to_do.value != [])
  }

  lemma {:induction false} NotesNeverEmpty(f: Company, es: seq<Edit>)
    requires NoEmptyNotes(f)
    ensures NoEmptyNotes(ApplyAll(f, es))
    decreases |es|
  {
    if es != [] {
      NotesNeverEmpty(Apply(f, es[0]), es[1..]);
    }
  }

  /** Typing back the text a remarks box shows (`remarks ?? ""`) stores the
      value that was there; a box that shows nothing stores null. */
  lemma RetypingRemarksKeepsThem(f: Company)
    requires NoEmptyNotes(f)
    ensures Apply(f, RemarksTyped(ShowOrEmpty(f.remarks))) == f
  {
    ShowThenStore(f.remarks);
  }

  /** Remarks are stored verbatim: surrounding spaces are not trimmed. */
  lemma RemarksUntrimmed(f: Company)
    ensures Apply(f, RemarksTyped(" call back ")).remarks == Some(" call back ")
  {
  }

  /** The texts `Records.UpdateToast` shows after the PUT reply; the form
      is kept either way (the parent closes the dialog on success). */
  const UpdatedToast := "Company updated successfully"
  const UpdateFailedToast := "Failed to update company"
}

=== FILE: edit_prospect_dialog.dfy ===
/** The edit-prospect dialog: a form that starts as a copy of the prospect
    (`useState<Prospect>(prospect)`), the edits its inputs make, and the
    follow-up date box, which shows the date part of a stored timestamp. */
module EditProspectDialog {
  import opened Text
  import opened Nullable
  import opened ContactNumber
  import opened Records

  /** The number two decimal digits spell. */
  function TwoDigits(a: char, b: char): int {
    (a as int - '0' as int) * 10 + (b as int - '0' as int)
  }

  /** The value of an `<input type="date">`: "YYYY-MM-DD" with a month from
      01 to 12 and a day from 01 to 31. The browser's date input yields
      only real calendar days, so a day past the end of its month (which
      would make `toISOString` throw) is not a value it produces. */
  predicate DateValue(d: string) {
    && |d| == 10 && d[4] == '-' && d[7] == '-'
    && (forall i :: 0 <= i < 10 && i != 4 && i != 7 ==> IsDigit(d[i]))
    && 1 <= TwoDigits(d[5], d[6]) <= 12
    && 1 <= TwoDigits(d[8], d[9]) <= 31
  }

  /** `new Date(d).toISOString()` for a date value: a date-only string is
      read as midnight UTC, so the timestamp is the date and a zero time. */
  function DateToIso(d: string): (iso: string)
    requires DateValue(d)
    ensures |iso| == 24 && iso[10] == 'T'
    ensures forall i :: 0 <= i < 10 ==> iso[i] == d[i]
  {
    d + "T00:00:00.000Z"
  }

  /** The first position at or after `k` that holds `c` (`|s|` when
      there is none). */
  function CharEnd(s: string, c: char, k: nat): (j: nat)
    requires k <= |s|
    ensures k <= j <= |s|
    ensures forall i :: k <= i < j ==> s[i] != c
    ensures j == |s| || s[j] == c
    decreases |s| - k
  {
    if k < |s| && s[k] != c then CharEnd(s, c, k + 1) else k
  }

  /** `CharEnd` finds the end of any run free of `c`. */
  lemma {:induction false} CharEndOfRun(s: string, c: char, k: nat, j: nat)
    requires k <= j <= |s|
    requires forall i :: k <= i < j ==> s[i] != c
    requires j == |s| || s[j] == c
    ensures CharEnd(s, c, k) == j
    decreases j - k
  {
    if k < j {
      CharEndOfRun(s, c, k + 1, j);
    }
  }

  /** `s.split(c)[0]`: the text before the first `c`, or all of `s`. */
  function BeforeFirst(s: string, c: char): (r: string)
    ensures |r| <= |s|
    ensures forall i :: 0 <= i < |r| ==> r[i] == s[i] && r[i] != c
    ensures |r| == |s| || s[|r|] == c
  {
    s[..CharEnd(s, c, 0)]
  }

  /** The follow-up date box: the date part of the stored timestamp, or
      nothing when there is none (null and "" are both falsy). */
  function FollowUpDisplay(stored: Option<string>): (shown: string)
    ensures stored.None? ==> shown == []
    ensures stored.Some? ==> shown == BeforeFirst(stored.value, 'T')
  {
    if stored.None? || stored.value == [] then [] else BeforeFirst(stored.value, 'T')
  }

  /** One change made through the dialog's inputs. A date pick carries the
      value of the date box, "" when it was cleared. */
  datatype Edit =
    | CompanyNameTyped(text: string)
    | ContactPersonTyped(text: string)
    | ContactNumberTyped(text: string)
    | EmailTyped(text: string)
    | IndustryPicked(text: string)
    | WebsiteTyped(text: string)
    | CallStatusPicked(text: string)
    | ProspectStatusPicked(text: string)
    | NotesTyped(text: string)
    | FollowUpPicked(date: string)

  /** An edit the inputs can make: a date box holds a date or nothing. */
  predicate Possible(e: Edit) {
    e.FollowUpPicked? ==> e.date == [] || DateValue(e.date)
  }

  /** `setFormData({ ...formData, key: value })`. The contact number goes
      through the sanitiser; website and notes are stored with
      `value || null`; a picked date is stored as its timestamp and a
      cleared one as null. */
  function Apply(f: Prospect, e: Edit): (g: Prospect)
    requires Possible(e)
    ensures g.id == f.id && g.called_count == f.called_count && g.last_called_at == f.last_called_at
    ensures e.ContactNumberTyped? ==> g == f.(contact_number := Sanitize(e.text))
    ensures e.WebsiteTyped? ==> g == f.(website := NullIfEmpty(e.text))
    ensures e.NotesTyped? ==> g == f.(notes := NullIfEmpty(e.text))
    ensures e.CompanyNameTyped? ==> g == f.(company_name := e.text)
    ensures e.ContactPersonTyped? ==> g == f.(contact_person := e.text)
    ensures e.EmailTyped? ==> g == f.(email_address := e.text)
    ensures e.IndustryPicked? ==> g == f.(industry := e.text)
    ensures e.CallStatusPicked? ==> g == f.(call_status := e.text)
    ensures e.ProspectStatusPicked? ==> g == f.(prospect_status := e.text)
    ensures e.FollowUpPicked? && e.date == [] ==> g == f.(follow_up_date := None)
    ensures e.FollowUpPicked? && e.date != [] ==> g == f.(follow_up_date := Some(DateToIso(e.date)))
    ensures !e.FollowUpPicked? ==> g.follow_up_date == f.follow_up_date
  {
    match e
    case CompanyNameTyped(t) => f.(company_name := t)
    case ContactPersonTyped(t) => f.(contact_person := t)
    case ContactNumberTyped(t) => f.(contact_number := Sanitize(t))
    case EmailTyped(t) => f.(email_address := t)
    case IndustryPicked(t) => f.(industry := t)
    case WebsiteTyped(t) => f.(website := NullIfEmpty(t))
    case CallStatusPicked(t) => f.(call_status := t)
    case ProspectStatusPicked(t) => f.(prospect_status := t)
    case NotesTyped(t) => f.(notes := NullIfEmpty(t))
    case FollowUpPicked(d) => f.(follow_up_date := if d == [] then None else Some(DateToIso(d)))
  }

  /** The form after a series of edits, applied in order. */
  function ApplyAll(f: Prospect, es: seq<Edit>): Prospect
    requires forall i :: 0 <= i < |es| ==> Possible(es[i])
    decreases |es|
  {
    if es == [] then f else ApplyAll(Apply(f, es[0]), es[1..])
  }

  /** No edit touches the id or the call history (count and last call):
      the dialog only shows them. */
  lemma {:induction false} CallHistoryKept(f: Prospect, es: seq<Edit>)
    requires forall i :: 0 <= i < |es| ==> Possible(es[i])
    ensures ApplyAll(f, es).id == f.id
    ensures ApplyAll(f, es).called_count == f.called_count
    ensures ApplyAll(f, es).last_called_at == f.last_called_at
    decreases |es|
  {
    if es != [] {
      CallHistoryKept(Apply(f, es[0]), es[1..]);
    }
  }

  /** Picking a date and reading the box again shows the date picked;
      clearing the box shows nothing. */
  lemma PickedDateShown(f: Prospect, d: string)
    requires d == [] || DateValue(d)
    ensures FollowUpDisplay(Apply(f, FollowUpPicked(d)).follow_up_date) == d
  {
    if d != [] {
      var iso := DateToIso(d);
      CharEndOfRun(iso, 'T', 0, 10);
    }
  }

  /** A stored timestamp shows as its date: "2025-03-14T09:30:00Z" shows
      "2025-03-14"; a value without a "T" shows whole. */
  lemma SampleFollowUp()
    ensures FollowUpDisplay(Some("2025-03-14T09:30:00Z")) == "2025-03-14"
    ensures FollowUpDisplay(Some("2025-03-14")) == "2025-03-14"
    ensures FollowUpDisplay(None) == ""
  {
    CharEndOfRun("2025-03-14T09:30:00Z", 'T', 0, 10);
    CharEndOfRun("2025-03-14", 'T', 0, 10);
  }

  /** Typing back the text a website or notes box shows (`value ?? ""`)
      stores the value that was there, when that value is not "". */
  lemma RetypingKeepsNotes(f: Prospect)
    requires f.notes.None? || f.notes.value != []
    requires f.website.None? || f.website.value != []
    ensures Apply(f, NotesTyped(ShowOrEmpty(f.notes))) == f
    ensures Apply(f, WebsiteTyped(ShowOrEmpty(f.website))) == f
  {
    ShowThenStore(f.notes);
    ShowThenStore(f.website);
  }

  /** The texts `Records.UpdateToast` shows after the PUT reply. */
  const UpdatedToast := "Prospect updated successfully"
  const UpdateFailedToast := "Failed to update prospect"
}

=== FILE: formats.dfy ===
/** The two format checks of the create handlers: the phone pattern
    `/^09\d{10}$/` and the email pattern `/^[^\s@]+@[^\s@]+\.[^\s@]+$/`,
    each decided by a direct test on the string and proved equal to the
    language of the regular expression. */
module Formats {
  import opened Text

  /** `/^09\d{10}$/.test(s)`. */
  predicate IsPhone(s: string) {
    |s| == 12 && s[0] == '0' && s[1] == '9' && forall i :: 2 <= i < |s| ==> IsDigit(s[i])
  }

  /** The strings the phone regular expression matches: "09" then ten digits. */
  ghost predicate PhonePattern(s: string) {
    exists ds :: PhoneSplit(s, ds)
  }

  ghost predicate PhoneSplit(s: string, ds: string) {
    |ds| == 10 && AllDigits(ds) && s == "09" + ds
  }

  /** The phone test accepts exactly the language of `^09\d{10}$`. */
  lemma PhoneIsPattern(s: string)
    ensures IsPhone(s) <==> PhonePattern(s)
  {
    if IsPhone(s) {
      assert forall i :: 0 <= i < 10 ==> s[2..][i] == s[i + 2];
      assert PhoneSplit(s, s[2..]);
    }
    if PhonePattern(s) {
      var ds :| PhoneSplit(s, ds);
      assert forall i :: 2 <= i < |s| ==> s[i] == ds[i - 2];
    }
  }

  /** A `[^\s@]+` run: non-empty, no whitespace and no `@`. */
  predicate EmailPart(x: string) {
    |x| > 0 && NoSpace(x) && '@' !in x
  }

  ghost predicate EmailSplit(s: string, local: string, host: string, tld: string) {
    EmailPart(local) && EmailPart(host) && EmailPart(tld) && s == local + "@" + host + "." + tld
  }

  /** The strings the email regular expression matches. */
  ghost predicate EmailPattern(s: string) {
    exists local, host, tld :: EmailSplit(s, local, host, tld)
  }

  /** Index of the first occurrence of `c` at or after position `from`. */
  function IndexFrom(s: string, c: char, from: nat): (i: nat)
    requires exists j :: from <= j < |s| && s[j] == c
    ensures from <= i < |s| && s[i] == c
    ensures forall j :: from <= j < i ==> s[j] != c
    decreases |s| - from
  {
    if s[from] == c then from else IndexFrom(s, c, from + 1)
  }

  /** `indexOf(c)`: the first occurrence of `c`. */
  function IndexOf(s: string, c: char): (i: nat)
    requires c in s
    ensures i < |s| && s[i] == c
    ensures forall j :: 0 <= j < i ==> s[j] != c
  {
    var k :| 0 <= k < |s| && s[k] == c;
    IndexFrom(s, c, 0)
  }

  /** `/^[^\s@]+@[^\s@]+\.[^\s@]+$/.test(s)`, decided by positions: no
      whitespace anywhere, a single `@` that is not first, and a `.` with at
      least one character on each side between the `@` and the end. */
  predicate IsEmail(s: string) {
    && NoSpace(s)
    && '@' in s
    && var at := IndexOf(s, '@');
       && 0 < at
       && (forall j :: at < j < |s| ==> s[j] != '@')
       && (exists k :: at + 1 < k < |s| - 1 && s[k] == '.')
  }

  /** A slice of a whitespace-free string with no `@` in it is a `[^\s@]+` run. */
  lemma SliceIsEmailPart(s: string, i: int, j: int)
    requires NoSpace(s) && 0 <= i < j <= |s|
    requires forall t :: i <= t < j ==> s[t] != '@'
    ensures EmailPart(s[i..j])
  {
    var x := s[i..j];
    assert forall t :: 0 <= t < |x| ==> x[t] == s[i + t];
  }

  /** Where the characters of a split address sit in the whole string. */
  lemma SplitPositions(s: string, local: string, host: string, tld: string)
    requires s == local + "@" + host + "." + tld
    ensures |s| == |local| + |host| + |tld| + 2
    ensures forall t :: 0 <= t < |local| ==> s[t] == local[t]
    ensures s[|local|] == '@'
    ensures forall t :: 0 <= t < |host| ==> s[|local| + 1 + t] == host[t]
    ensures s[|local| + 1 + |host|] == '.'
    ensures forall t :: 0 <= t < |tld| ==> s[|local| + |host| + 2 + t] == tld[t]
  {
  }

  /** The email test accepts exactly the language of the regular expression. */
  lemma EmailIsPattern(s: string)
    ensures IsEmail(s) <==> EmailPattern(s)
  {
    if IsEmail(s) {
      AcceptedEmailMatches(s);
    }
    if EmailPattern(s) {
      var local, host, tld :| EmailSplit(s, local, host, tld);
      SplitIsAccepted(s, local, host, tld);
    }
  }

  /** Every accepted address splits into the three runs of the pattern. */
  lemma AcceptedEmailMatches(s: string)
    requires IsEmail(s)
    ensures EmailPattern(s)
  {
    var at := IndexOf(s, '@');
    var k :| at + 1 < k < |s| - 1 && s[k] == '.';
    var local, host, tld := s[..at], s[at + 1..k], s[k + 1..];
    SliceIsEmailPart(s, 0, at);
    SliceIsEmailPart(s, at + 1, k);
    SliceIsEmailPart(s, k + 1, |s|);
    assert s[k + 1..|s|] == tld;
    assert s == local + "@" + host + "." + tld;
    assert EmailSplit(s, local, host, tld);
  }

  /** Every address of the pattern's shape is accepted. */
  lemma SplitIsAccepted(s: string, local: string, host: string, tld: string)
    requires EmailSplit(s, local, host, tld)
    ensures IsEmail(s)
  {
    var at, k := |local|, |local| + 1 + |host|;
    SplitCharacters(s, local, host, tld);
    assert s[at] == '@' && s[k] == '.';
    assert IndexOf(s, '@') == at;
  }

  /** In an address of the pattern's shape there is no whitespace and the
      only `@` is the one between the local part and the host. */
  lemma SplitCharacters(s: string, local: string, host: string, tld: string)
    requires EmailSplit(s, local, host, tld)
    ensures |s| == |local| + |host| + |tld| + 2
    ensures s[|local|] == '@' && s[|local| + 1 + |host|] == '.'
    ensures NoSpace(s)
    ensures forall t :: 0 <= t < |s| && t != |local| ==> s[t] != '@'
  {
    SplitPositions(s, local, host, tld);
    var at, k := |local|, |local| + 1 + |host|;
    forall t | 0 <= t < |s|
      ensures !IsSpace(s[t]) && (t != at ==> s[t] != '@')
    {
      if t < at {
        assert s[t] == local[t];
      } else if at < t < k {
        assert s[t] == host[t - at - 1];
      } else if t > k {
        assert s[t] == tld[t - k - 1];
      }
    }
  }

  /** The example number quoted in the create handlers' phone error message
      has eleven characters, so the check it illustrates rejects it. */
  lemma MessageExampleRejected()
    ensures !IsPhone("09918121869")
    ensures |"09918121869"| == 11
  {
  }

  /** Sample addresses: "a@b.co" is accepted; "a@b", "a.b.com" and "" are not. */
  lemma SampleAddresses()
    ensures IsEmail("a@b.co")
    ensures !IsEmail("a@b") && !IsEmail("a.b.com") && !IsEmail("")
  {
    assert IndexOf("a@b.co", '@') == 1;
    assert "a@b.co"[3] == '.';
    assert IndexOf("a@b", '@') == 1;
  }

  /** Sample numbers: twelve characters starting "09" are accepted; the same
      with a leading space are not. */
  lemma SamplePhones()
    ensures IsPhone("091234567890") && !IsPhone(" 091234567890")
  {
  }

  /** An accepted number with a space in front is not blank, so it passes
      a "required" check, but it is no longer accepted. */
  lemma PaddedPhone(phone: string)
    requires IsPhone(phone)
    ensures !AllSpace(" " + phone) && !IsPhone(" " + phone)
  {
    assert (" " + phone)[1] == phone[0];
  }

  /** An accepted phone or email has no whitespace, so trimming it is the
      identity: the stored value equals the validated value. */
  lemma AcceptedValuesAreTrimmed(s: string)
    ensures IsPhone(s) ==> Trim(s) == s
    ensures IsEmail(s) ==> Trim(s) == s
  {
    if IsPhone(s) {
      assert forall i :: 0 <= i < |s| ==> IsDigit(s[i]);
      assert NoSpace(s);
    }
  }
}

=== FILE: listing.dfy ===
/** The list (GET) handlers' shared parts: reading the page number,
    the datastore query they build, and the paginated response. */
module Listing {
  import opened Nullable
  import opened Decimal
  import opened QueryParams
  import opened Paging
  import opened Validation
  import Session

  /** The query handed to the datastore: the row window (None when the page
      is NaN, so both bounds are NaN), the `or(...)` search filter text, and
      the exact-equality filters `eq(column, value)` in the order applied. */
  datatype ListPlan = ListPlan(window: Option<Window>, orFilter: Option<string>,
                               equals: seq<(string, string)>)

  /** `parseInt(searchParams.get("page") || "1", 10)`; None is NaN. */
  function ReadPage(ps: Params): (page: Option<int>)
    ensures !HasKey(ps, "page") ==> page == Some(1)
  {
    var raw := GetOrEmpty(ps, "page");
    ParseIntOfIntToString(1);
    assert IntToString(1) == "1";
    ParseInt(if raw == [] then "1" else raw)
  }

  /** The window for a parsed page; NaN arithmetic yields no window. */
  function PlanWindow(page: Option<int>): Option<Window> {
    if page.Some? then Some(WindowOf(page.value)) else None
  }

  /** `if (value) query = query.eq(column, value)`. */
  function EqWhen(column: string, value: string): (filters: seq<(string, string)>)
    ensures value == [] ==> filters == []
    ensures value != [] ==> filters == [(column, value)]
  {
    if value != [] then [(column, value)] else []
  }

  /** The `pagination` object of a list response; a NaN page and a null
      count are echoed as null. */
  datatype ServerPageInfo = ServerPageInfo(page: Option<int>, pageSize: int,
                                           total: Option<nat>, totalPages: nat)

  /** What the datastore answered: an error object, the rows of the window
      with the exact count of all matching rows, or a rejected promise. */
  datatype ListOutcome<R> = ListFailed(message: string) | Listed(rows: seq<R>, count: Option<nat>) | ListThrew

  datatype ListResponse<R> = ListRejected(error: ApiError) | ListOk(data: seq<R>, pagination: ServerPageInfo)

  /** The response of a list handler once the session gate is passed. */
  function RespondList<R>(page: Option<int>, outcome: ListOutcome<R>): (r: ListResponse<R>)
    ensures outcome.ListFailed? ==> r == ListRejected(ApiError(400, outcome.message))
    ensures outcome.ListThrew? ==> r == ListRejected(InternalError)
    ensures r.ListOk? <==> outcome.Listed?
    ensures r.ListOk? ==> && r.data == outcome.rows
                          && r.pagination.page == page
                          && r.pagination.pageSize == PageSize
                          && r.pagination.total == outcome.count
                          && r.pagination.totalPages == TotalPages(outcome.count)
  {
    match outcome
    case ListFailed(m) => ListRejected(ApiError(400, m))
    case ListThrew => ListRejected(InternalError)
    case Listed(rows, count) =>
      ListOk(rows, ServerPageInfo(page, PageSize, count, TotalPages(count)))
  }

  /** What a list handler does: the query it sends to the datastore, if
      any, and the response. */
  datatype ListExchange<R> = ListExchange(plan: Option<ListPlan>, response: ListResponse<R>)

  /** The session gate of a list handler: without the cookie the datastore
      is never queried and the answer is 401; otherwise `plan` is sent and
      the datastore's `outcome` answered. */
  function GatedList<R>(authCookie: Option<string>, page: Option<int>, plan: ListPlan,
                        outcome: ListOutcome<R>): (x: ListExchange<R>)
    ensures !Session.CheckAuth(authCookie) ==> x.plan.None? && x.response == ListRejected(Unauthorized)
    ensures Session.CheckAuth(authCookie) ==> x.plan == Some(plan) && x.response == RespondList(page, outcome)
  {
    if !Session.CheckAuth(authCookie) then ListExchange(None, ListRejected(Unauthorized))
    else ListExchange(Some(plan), RespondList(page, outcome))
  }

  function ListStatus<R>(r: ListResponse<R>): int {
    if r.ListOk? then 200 else r.error.status
  }

  /** A page number written by a client as `String(page)` is read back as
      the same page, so its window and the echoed page are that page's. */
  lemma ReadPageOfWrittenPage(page: int, rest: Params)
    ensures ReadPage([("page", IntToString(page))] + rest) == Some(page)
    ensures PlanWindow(ReadPage([("page", IntToString(page))] + rest)) == Some(WindowOf(page))
  {
    ParseIntOfIntToString(page);
  }
}

=== FILE: login.dfy ===
/** The login handler: compares the submitted username and password with
    the two configured values and, on a match, sets the session cookie. */
module Login {
  import opened Nullable
  import opened Validation
  import Session

  /** The destructured JSON body `{ username, password }`. */
  datatype Credentials = Credentials(username: Field, password: Field)

  /** The environment: `ADMIN_USERNAME`, `ADMIN_PASSWORD` and `NODE_ENV`. */
  datatype Config = Config(adminUsername: Option<string>, adminPassword: Option<string>,
                           nodeEnv: Option<string>)

  datatype Cookie = Cookie(name: string, value: string, httpOnly: bool, secure: bool,
                           sameSite: string, path: string, maxAge: int)

  datatype LoginResponse = LoggedIn(cookie: Cookie) | Refused(status: int, message: string)

  /** `!validUser || !validPass` is false: both values set and non-empty. */
  predicate Configured(c: Config) {
    c.adminUsername.Some? && c.adminUsername.value != []
    && c.adminPassword.Some? && c.adminPassword.value != []
  }

  /** `username === validUser && password === validPass`: strict equality,
      so only a string equal to the configured text matches. */
  predicate Matches(cred: Credentials, c: Config)
    requires Configured(c)
  {
    cred.username == Str(c.adminUsername.value) && cred.password == Str(c.adminPassword.value)
  }

  const BadRequest := Refused(400, "Bad request")
  const NotConfigured := Refused(500, "Server is not configured. Missing env vars.")
  const InvalidCredentials := Refused(401, "Invalid credentials")

  /** The login decision. `body` is None when the request body is not JSON
      or cannot be destructured; parsing comes first, so such a body is
      answered with 400 whatever the configuration is. */
  function HandleLogin(body: Option<Credentials>, config: Config): (r: LoginResponse)
    ensures body.None? ==> r == BadRequest
    ensures body.Some? && !Configured(config) ==> r == NotConfigured
    ensures r.LoggedIn? <==> body.Some? && Configured(config) && Matches(body.value, config)
    ensures body.Some? && Configured(config) && !Matches(body.value, config) ==> r == InvalidCredentials
    ensures r.LoggedIn? ==> && r.cookie.name == Session.AuthCookieName
                            && Session.CheckAuth(Some(r.cookie.value))
                            && r.cookie.maxAge == 86400
                            && r.cookie.httpOnly && r.cookie.path == "/"
                            && r.cookie.sameSite == "lax"
                            && (r.cookie.secure <==> config.nodeEnv == Some("production"))
  {
    if body.None? then BadRequest
    else if !Configured(config) then NotConfigured
    else if Matches(body.value, config) then
      LoggedIn(Cookie(Session.AuthCookieName, Session.AuthCookieValue, true,
                      config.nodeEnv == Some("production"), "lax", "/", Session.AuthMaxAge))
    else InvalidCredentials
  }

  /** The configuration check comes before the comparison: with an empty
      configured username, an empty submitted username still gets 500. */
  lemma ConfigurationCheckedFirst(password: string, nodeEnv: Option<string>)
    ensures HandleLogin(Some(Credentials(Str(""), Str(password))),
                        Config(Some(""), Some(password), nodeEnv)) == NotConfigured
  {
  }
}

=== FILE: middleware.dfy ===
/** The request middleware: the exported function redirects a `/dashboard`
    request without the session cookie to `/`, and the exported matcher
    decides which requests reach that function at all. */
module Middleware {
  import opened Text
  import opened Nullable
  import Session
  import Login

  datatype Url = Url(origin: string, pathname: string, search: string, hash: string)

  datatype Decision = Next | Redirect(to: Url)

  const GatedPrefix := "/dashboard"

  /** Passes the request on, or redirects to the same URL with its path
      replaced by `/` when a `/dashboard` path lacks the session cookie. */
  function Decide(url: Url, authCookie: Option<string>): (d: Decision)
    ensures !StartsWith(url.pathname, GatedPrefix) ==> d == Next
    ensures StartsWith(url.pathname, GatedPrefix) && Session.CheckAuth(authCookie) ==> d == Next
    ensures d.Redirect? <==> StartsWith(url.pathname, GatedPrefix) && !Session.CheckAuth(authCookie)
    ensures d.Redirect? ==> d.to.pathname == "/" && d.to.origin == url.origin
                            && d.to.search == url.search && d.to.hash == url.hash
  {
    if StartsWith(url.pathname, GatedPrefix) && !Session.CheckAuth(authCookie) then
      Redirect(url.(pathname := "/"))
    else
      Next
  }

  /** The redirect target is not gated, so following a redirect never
      redirects again. */
  lemma RedirectTargetPasses(url: Url, authCookie: Option<string>)
    requires Decide(url, authCookie).Redirect?
    ensures Decide(Decide(url, authCookie).to, authCookie) == Next
  {
  }

  /** The `config.matcher` entry `/dashboard/:path*`: the path `/dashboard`
      itself or any path below it. Other requests never reach `Decide`. */
  predicate Matched(pathname: string) {
    pathname == GatedPrefix || StartsWith(pathname, GatedPrefix + "/")
  }

  /** A request as the framework handles it: unmatched paths pass without
      running the middleware; matched ones get its decision. */
  function Handle(url: Url, authCookie: Option<string>): (d: Decision)
    ensures !Matched(url.pathname) ==> d == Next
    ensures d.Redirect? <==> Matched(url.pathname) && !Session.CheckAuth(authCookie)
    ensures d.Redirect? ==> d.to == url.(pathname := "/")
  {
    if Matched(url.pathname) then Decide(url, authCookie) else Next
  }

  /** Every matched path carries the prefix the function tests, so on the
      requests it is given, the function's own prefix test always holds. */
  lemma MatchedIsGated(pathname: string)
    requires Matched(pathname)
    ensures StartsWith(pathname, GatedPrefix)
  {
    if pathname != GatedPrefix {
      assert pathname[..|GatedPrefix|] == (GatedPrefix + "/")[..|GatedPrefix|];
    }
  }

  /** The function's test is a plain string prefix, so on its own it would
      redirect `/dashboards`; the matcher never sends that path to it, so
      the request passes. */
  lemma PrefixLookalikesPass(origin: string)
    ensures Decide(Url(origin, "/dashboards", "", ""), None).Redirect?
    ensures Handle(Url(origin, "/dashboards", "", ""), None) == Next
  {
    assert "/dashboards"[..|GatedPrefix|] == GatedPrefix;
    assert "/dashboards"[|GatedPrefix|] == 's';
  }

  /** Following a redirect of the framework never redirects again. */
  lemma HandledRedirectPasses(url: Url, authCookie: Option<string>)
    requires Handle(url, authCookie).Redirect?
    ensures Handle(Handle(url, authCookie).to, authCookie) == Next
  {
  }

  /** The cookie a successful login sets opens every `/dashboard` path. */
  lemma LoginOpensDashboard(body: Option<Login.Credentials>, config: Login.Config, url: Url)
    requires Login.HandleLogin(body, config).LoggedIn?
    ensures Decide(url, Some(Login.HandleLogin(body, config).cookie.value)) == Next
    ensures Handle(url, Some(Login.HandleLogin(body, config).cookie.value)) == Next
  {
  }
}

=== FILE: nullable.dfy ===
/** JavaScript's absent values. `Option` stands for a value that may be
    `null` or `undefined`; the two are not told apart where the source's
    operators (`??`, `?.`, `||`) do not tell them apart. */
module Nullable {

  datatype Option<+T> = None | Some(value: T)

  /** `a ?? b`: the left value unless it is null or undefined. */
  function Coalesce<T>(a: Option<T>, b: Option<T>): (r: Option<T>)
    ensures a.Some? ==> r == a
    ensures a.None? ==> r == b
  {
    if a.Some? then a else b
  }

  /** `a ?? d` with a plain default. */
  function GetOr<T>(a: Option<T>, d: T): (r: T)
    ensures a.Some? ==> r == a.value
    ensures a.None? ==> r == d
  {
    if a.Some? then a.value else d
  }

  /** `text || null` on a string: the empty string is the only falsy string,
      so it becomes null and every other text is kept verbatim (untrimmed). */
  function NullIfEmpty(text: string): (r: Option<string>)
    ensures r.None? <==> text == []
    ensures r.Some? ==> r.value == text
  {
    if text == [] then None else Some(text)
  }

  /** The value shown in a text box bound to `value ?? ""`. */
  function ShowOrEmpty(o: Option<string>): string {
    GetOr(o, "")
  }

  /** Showing a nullable text and storing the typed text back with
      `|| null` returns the value that was there, provided that value
      is never the empty string. */
  lemma ShowThenStore(o: Option<string>)
    requires o.None? || o.value != []
    ensures NullIfEmpty(ShowOrEmpty(o)) == o
  {
  }
}

=== FILE: paging.dfy ===
/** Fixed-size pagination: the row window a page number asks the datastore
    for, the page count reported back, and the pager controls of the two
    table components that turn that count into page requests. */
module Paging {
  import opened Nullable

  const PageSize: int := 20

  /** An inclusive index range, the two arguments of `range(from, to)`. */
  datatype Window = Window(first: int, last: int)

  /** `offset = (page - 1) * pageSize; range(offset, offset + pageSize - 1)`.
      No guard: page 0 or a negative page gives a window of negative indices. */
  function WindowOf(page: int): (w: Window)
    ensures w.last - w.first + 1 == PageSize
    ensures page >= 1 <==> w.first >= 0
  {
    var offset := (page - 1) * PageSize;
    Window(offset, offset + PageSize - 1)
  }

  predicate InWindow(i: int, w: Window) {
    w.first <= i <= w.last
  }

  /** Consecutive pages ask for adjacent windows. */
  lemma WindowsAdjacent(page: int)
    ensures WindowOf(page + 1).first == WindowOf(page).last + 1
  {
  }

  /** The windows partition the indices: index `i` lies in the window of
      exactly one page, page `i / 20 + 1`. So distinct pages never share
      a row and page `p >= 1` covers rows `20(p-1)` to `20p - 1`. */
  lemma WindowsPartition(i: int, page: int)
    ensures InWindow(i, WindowOf(page)) <==> page == i / PageSize + 1
  {
    var q := i / PageSize;
    assert q * PageSize <= i < q * PageSize + PageSize;
  }

  lemma WindowsDisjoint(p: int, q: int, i: int)
    requires p != q
    ensures !(InWindow(i, WindowOf(p)) && InWindow(i, WindowOf(q)))
  {
    WindowsPartition(i, p);
    WindowsPartition(i, q);
  }

  /** `Math.ceil((count || 0) / pageSize)`: a missing count counts as 0. */
  function TotalPages(count: Option<nat>): (n: nat)
    ensures n == 0 <==> GetOr(count, 0) == 0
    ensures n > 0 ==> (n - 1) * PageSize < GetOr(count, 0) <= n * PageSize
  {
    var c := GetOr(count, 0);
    var n := (c + PageSize - 1) / PageSize;
    assert n * PageSize <= c + PageSize - 1 < n * PageSize + PageSize;
    n
  }

  /** How many of `total` matching rows fall into the window of `page`. */
  function RowsOnPage(total: nat, page: int): nat {
    var w := WindowOf(page);
    var lo := if w.first < 0 then 0 else w.first;
    var hi := if w.last + 1 < total then w.last + 1 else total;
    if hi > lo then hi - lo else 0
  }

  /** The non-empty pages are exactly pages 1 to totalPages: every page
      before the last holds a full 20 rows and the last holds the rest. */
  lemma PageCountMatchesRows(total: nat, page: int)
    ensures RowsOnPage(total, page) > 0 <==> 1 <= page <= TotalPages(Some(total))
    ensures 1 <= page < TotalPages(Some(total)) ==> RowsOnPage(total, page) == PageSize
    ensures page == TotalPages(Some(total)) > 0 ==>
              RowsOnPage(total, page) == total - (page - 1) * PageSize
  {
    var n := TotalPages(Some(total));
    if 1 <= page <= n {
      assert (page - 1) * PageSize <= (n - 1) * PageSize;
    }
    if page > n && n > 0 {
      assert (page - 1) * PageSize >= n * PageSize;
    }
    if page < n {
      assert page * PageSize <= (n - 1) * PageSize;
    }
  }

  /** 45 matching rows make 3 pages; page 1 has 20 rows and page 3 has 5. */
  lemma FortyFiveRows()
    ensures TotalPages(Some(45)) == 3
    ensures RowsOnPage(45, 1) == 20 && RowsOnPage(45, 3) == 5
  {
  }

  /** The pagination state the table components keep (`PaginationData`). */
  datatype PageInfo = PageInfo(page: int, pageSize: int, total: Option<nat>, totalPages: nat)

  const InitialPageInfo := PageInfo(1, 20, Some(0), 0)

  /** `Array.from({ length: totalPages }, (_, i) => i + 1)`. */
  function PageLinks(totalPages: int): (links: seq<int>)
    ensures |links| == if totalPages > 0 then totalPages else 0
    ensures forall k :: 0 <= k < |links| ==> links[k] == k + 1
  {
    seq(if totalPages > 0 then totalPages else 0, k => k + 1)
  }

  /** The pager is rendered only when there is more than one page. */
  predicate ShowPager(p: PageInfo) {
    p.totalPages > 1
  }

  datatype PagerAction = Previous | Next | Link(pageNum: int)

  /** The page a click on the pager fetches, or None when the click does
      nothing: the pager is not rendered, a guard fails, or no such link. */
  function Request(p: PageInfo, a: PagerAction): (r: Option<int>)
    ensures r.Some? ==> ShowPager(p)
    ensures ShowPager(p) && a.Previous? ==> (r.Some? <==> p.page > 1)
    ensures ShowPager(p) && a.Next? ==> (r.Some? <==> p.page < p.totalPages)
    ensures ShowPager(p) && a.Link? ==> (r.Some? <==> 1 <= a.pageNum <= p.totalPages)
  {
    if !ShowPager(p) then None
    else
      match a
      case Previous => if p.page > 1 then Some(p.page - 1) else None
      case Next => if p.page < p.totalPages then Some(p.page + 1) else None
      case Link(n) =>
        var links := PageLinks(p.totalPages);
        assert 1 <= n <= p.totalPages ==> links[n - 1] == n;
        if n in links then Some(n) else None
  }

  /** From a page within range, every request the pager makes is a page
      within range, and previous/next move by exactly one. */
  lemma RequestsStayInRange(p: PageInfo, a: PagerAction)
    requires 1 <= p.page <= p.totalPages
    ensures Request(p, a).Some? ==> 1 <= Request(p, a).value <= p.totalPages
    ensures a.Previous? && Request(p, a).Some? ==> Request(p, a).value == p.page - 1
    ensures a.Next? && Request(p, a).Some? ==> Request(p, a).value == p.page + 1
    ensures a.Link? && Request(p, a).Some? ==> Request(p, a).value == a.pageNum
  {
  }
}

=== FILE: prospect_table.dfy ===
/** The prospect table with its edit dialog: how a row from the server is
    turned into what the table shows, the query a fetch sends, and the
    payload a save sends. The list of industry names is a parameter. */
module ProspectTable {
  import opened Text
  import opened Nullable
  import opened Decimal
  import opened QueryParams
  import opened Listing
  import ProspectsApi

  /** The position of the first industry at or after `k` whose lower case
      equals the lower case of `s`, or `|industries|` when none does. */
  function MatchFrom(industries: seq<string>, s: string, k: nat): (j: nat)
    requires k <= |industries|
    ensures k <= j <= |industries|
    ensures forall i :: k <= i < j ==> Lower(industries[i]) != Lower(s)
    ensures j < |industries| ==> Lower(industries[j]) == Lower(s)
    decreases |industries| - k
  {
    if k == |industries| then k
    else if Lower(industries[k]) == Lower(s) then k
    else MatchFrom(industries, s, k + 1)
  }

  /** The search depends on `s` only through its lower case. */
  lemma {:induction false} MatchFromSameLower(industries: seq<string>, s: string, t: string, k: nat)
    requires k <= |industries|
    requires Lower(s) == Lower(t)
    ensures MatchFrom(industries, s, k) == MatchFrom(industries, t, k)
    decreases |industries| - k
  {
    if k < |industries| && Lower(industries[k]) != Lower(s) {
      MatchFromSameLower(industries, s, t, k + 1);
    }
  }

  /** The search finds the first position whose industry has the lower
      case of `s`. */
  lemma {:induction false} MatchFromFirst(industries: seq<string>, s: string, k: nat, j: nat)
    requires k <= j < |industries|
    requires Lower(industries[j]) == Lower(s)
    requires forall i :: k <= i < j ==> Lower(industries[i]) != Lower(s)
    ensures MatchFrom(industries, s, k) == j
    decreases j - k
  {
    if k < j {
      MatchFromFirst(industries, s, k + 1, j);
    }
  }

  /** `displayIndustryFromServer`: "" for a missing or empty industry; the
      first listed industry that matches ignoring case; else the stored
      text itself. */
  function DisplayIndustry(industries: seq<string>, stored: Option<string>): (shown: string)
    ensures stored.None? || stored.value == [] ==> shown == []
    ensures stored.Some? ==> Lower(shown) == Lower(stored.value)
    ensures stored.Some? && stored.value != [] ==>
              (shown in industries || shown == stored.value)
    ensures (stored.Some? && forall i :: 0 <= i < |industries| ==> Lower(industries[i]) != Lower(stored.value))
            ==> shown == stored.value
    ensures stored.Some? && stored.value != [] ==>
              forall j :: (0 <= j < |industries| && Lower(industries[j]) == Lower(stored.value)
                           && (forall i :: 0 <= i < j ==> Lower(industries[i]) != Lower(stored.value)))
                          ==> shown == industries[j]
  {
    if stored.None? || stored.value == [] then []
    else
      var j := MatchFrom(industries, stored.value, 0);
      if j < |industries| then industries[j] else stored.value
  }

  /** Showing what is shown changes nothing: a shown industry is either a
      listed name, which matches itself first, or text no name matches. */
  lemma DisplayIdempotent(industries: seq<string>, stored: Option<string>)
    ensures var shown := DisplayIndustry(industries, stored);
            DisplayIndustry(industries, Some(shown)) == shown
  {
    var shown := DisplayIndustry(industries, stored);
    if stored.Some? && stored.value != [] {
      assert |shown| == |Lower(shown)| == |Lower(stored.value)| == |stored.value|;
      MatchFromSameLower(industries, shown, stored.value, 0);
    }
  }

  /** An industry picked from the list, when no earlier name has the same
      lower case, survives a save and a reload: the payload sends it in
      lower case and the table maps that back to the name. */
  lemma PickedIndustryRedisplayed(industries: seq<string>, j: nat)
    requires j < |industries| && industries[j] != []
    requires forall i :: 0 <= i < j ==> Lower(industries[i]) != Lower(industries[j])
    ensures DisplayIndustry(industries, Some(Lower(industries[j]))) == industries[j]
  {
    var name := industries[j];
    LowerIdempotent(name);
    MatchFromSameLower(industries, Lower(name), name, 0);
    MatchFromFirst(industries, name, 0, j);
  }

  /** A row as the server sends it. Each key may be missing or null (None);
      the camelCase keys are the alternatives the table also reads. */
  datatype ServerProspect = ServerProspect(
    id: string,
    company_name: Option<string>, companyName: Option<string>,
    contact_person: Option<string>, contactPerson: Option<string>,
    contact_number: Option<string>, contactNumber: Option<string>,
    industry: Option<string>,
    call_status: Option<string>, callStatus: Option<string>,
    status: Option<string>, remark: Option<string>,
    date_added: Option<string>, dateAdded: Option<string>,
    date_updated: Option<string>, dateUpdated: Option<string>,
    email_address: Option<string>, emailAddress: Option<string>)

  /** A row as the table holds and shows it. */
  datatype TableProspect = TableProspect(
    id: string, companyName: string, contactPerson: string, contactNumber: string,
    industry: string, callStatus: string, status: string, remark: string,
    dateAdded: string, dateUpdated: Option<string>, emailAddress: Option<string>)

  /** `snake ?? camel ?? ""`: the snake_case key wins whenever it is
      present, even when it holds "". */
  function Preferred(snake: Option<string>, camel: Option<string>): (v: string)
    ensures snake.Some? ==> v == snake.value
    ensures snake.None? && camel.Some? ==> v == camel.value
    ensures snake.None? && camel.None? ==> v == []
  {
    GetOr(Coalesce(snake, camel), "")
  }

  /** `mapServerToProspect`. */
  function MapServerToProspect(industries: seq<string>, item: ServerProspect): (p: TableProspect)
    ensures p.id == item.id
    ensures p.companyName == Preferred(item.company_name, item.companyName)
    ensures p.contactPerson == Preferred(item.contact_person, item.contactPerson)
    ensures p.contactNumber == Preferred(item.contact_number, item.contactNumber)
    ensures p.callStatus == Preferred(item.call_status, item.callStatus)
    ensures p.dateAdded == Preferred(item.date_added, item.dateAdded)
    ensures p.status == GetOr(item.status, "") && p.remark == GetOr(item.remark, "")
    ensures Lower(p.industry) == Lower(GetOr(item.industry, ""))
    ensures item.date_updated.Some? ==> p.dateUpdated == item.date_updated
    ensures item.date_updated.None? ==> p.dateUpdated == item.dateUpdated
    ensures item.email_address.Some? ==> p.emailAddress == item.email_address
    ensures item.email_address.None? ==> p.emailAddress == item.emailAddress
  {
    TableProspect(
      item.id,
      Preferred(item.company_name, item.companyName),
      Preferred(item.contact_person, item.contactPerson),
      Preferred(item.contact_number, item.contactNumber),
      DisplayIndustry(industries, item.industry),
      Preferred(item.call_status, item.callStatus),
      GetOr(item.status, ""),
      GetOr(item.remark, ""),
      Preferred(item.date_added, item.dateAdded),
      Coalesce(item.date_updated, item.dateUpdated),
      Coalesce(item.email_address, item.emailAddress))
  }

  /** A row holding exactly the keys the create handler inserts, under
      their snake_case names, plus its id. The handler stores the status
      under `prospect_status` and the notes under `notes`, neither of which
      the table reads. */
  function InsertedRow(id: string, p: ProspectsApi.NewProspect): ServerProspect {
    ServerProspect(id,
      Some(p.company_name), None, Some(p.contact_person), None,
      Some(p.contact_number), None, Some(p.industry),
      Some(p.call_status), None, None, None,
      None, None, None, None, Some(p.email_address), None)
  }

  /** A row the create handler inserted shows its stored name, contact,
      number, call status and email, and its industry with the same lower
      case; its status, remark and date added show as "" because the row
      has no such keys. Saving it again sends the statuses it was created
      with. */
  lemma InsertedRowShown(industries: seq<string>, id: string, p: ProspectsApi.NewProspect)
    requires ProspectsApi.StoredProspect(p)
    ensures var t := MapServerToProspect(industries, InsertedRow(id, p));
            && t.id == id && t.companyName == p.company_name
            && t.contactPerson == p.contact_person && t.contactNumber == p.contact_number
            && t.callStatus == p.call_status && t.emailAddress == Some(p.email_address)
            && t.industry != [] && Lower(t.industry) == Lower(p.industry)
            && t.status == [] && t.remark == [] && t.dateAdded == [] && t.dateUpdated.None?
    ensures var u := Payload(MapServerToProspect(industries, InsertedRow(id, p)));
            u.call_status == p.call_status && u.status == p.prospect_status
  {
    var t := MapServerToProspect(industries, InsertedRow(id, p));
    assert |t.industry| == |Lower(t.industry)| == |Lower(p.industry)| == |p.industry|;
  }

  /** The table's filter inputs. The three selects hold "all" when unset;
      the date is the picked day already written as "yyyy-MM-dd". */
  datatype Filters = Filters(search: string, status: string, industry: string,
                             callStatus: string, date: Option<string>)

  /** The filters `refreshTable` restores. */
  const ResetFilters := Filters("", "all", "all", "all", None)

  const All := "all"

  /** The `params` object of `fetchProspects`, in the order its keys are
      set: the page always, then the filters. */
  function FetchParams(page: int, f: Filters): (ps: Params)
    ensures |ps| >= 1 && ps[0] == ("page", IntToString(page))
    ensures ps[1..] == FilterParams(f)
  {
    [("page", IntToString(page))] + FilterParams(f)
  }

  /** The filter part: the search trimmed, when that leaves anything; the
      industry in lower case, the call status and the status unless they
      are "all"; the date when one is picked. */
  function FilterParams(f: Filters): (ps: Params)
    ensures forall k :: 0 <= k < |ps| ==> ps[k].0 != "page"
  {
    When(Trim(f.search) != [], "search", Trim(f.search))
      + (When(f.industry != All, "industry", Lower(f.industry))
         + SelectParams(f.callStatus, f.status, f.date))
  }

  /** The call status, status and date part of the query. */
  function SelectParams(callStatus: string, status: string, date: Option<string>): (ps: Params)
    ensures forall k :: 0 <= k < |ps| ==> ps[k].0 in {"callStatus", "status", "date"}
  {
    When(callStatus != All, "callStatus", callStatus)
      + (When(status != All, "status", status) + When(date.Some?, "date", GetOr(date, "")))
  }

  /** Lookup in the select part: the call status as chosen unless "all",
      and never a search, industry or prospect-status key. */
  lemma GetSelect(callStatus: string, status: string, date: Option<string>, key: string)
    ensures key == "callStatus" ==>
              Get(SelectParams(callStatus, status, date), key)
              == if callStatus == All then None else Some(callStatus)
    ensures key !in {"callStatus", "status", "date"} ==>
              Get(SelectParams(callStatus, status, date), key).None?
  {
    var ps := SelectParams(callStatus, status, date);
    if key !in {"callStatus", "status", "date"} {
      assert !HasKey(ps, key);
    } else if key == "callStatus" {
      GetConcat(When(callStatus != All, "callStatus", callStatus),
                When(status != All, "status", status) + When(date.Some?, "date", GetOr(date, "")), key);
      assert !HasKey(When(status != All, "status", status) + When(date.Some?, "date", GetOr(date, "")), key);
    }
  }

  /** Each key the list handler reads, looked up in the filter part. */
  lemma GetFilter(f: Filters, key: string)
    ensures key == "search" ==> Get(FilterParams(f), key) == NullIfEmpty(Trim(f.search))
    ensures key == "industry" ==>
              Get(FilterParams(f), key) == if f.industry == All then None else Some(Lower(f.industry))
    ensures key == "callStatus" ==>
              Get(FilterParams(f), key) == if f.callStatus == All then None else Some(f.callStatus)
    ensures key == "prospectStatus" ==> Get(FilterParams(f), key).None?
  {
    var s := When(Trim(f.search) != [], "search", Trim(f.search));
    var i := When(f.industry != All, "industry", Lower(f.industry));
    GetConcat(s, i + SelectParams(f.callStatus, f.status, f.date), key);
    GetConcat(i, SelectParams(f.callStatus, f.status, f.date), key);
    GetWhen(Trim(f.search) != [], "search", Trim(f.search), key);
    GetWhen(f.industry != All, "industry", Lower(f.industry), key);
    GetSelect(f.callStatus, f.status, f.date, key);
  }

  /** A key other than "page" is looked up among the filters. */
  lemma GetFetchFilter(page: int, f: Filters, key: string)
    requires key != "page"
    ensures GetOrEmpty(FetchParams(page, f), key) == GetOr(Get(FilterParams(f), key), "")
  {
    GetConcat([("page", IntToString(page))], FilterParams(f), key);
  }

  /** What the list handler reads from that query: the page, the search
      trimmed, the industry in lower case, and the call status, each ""
      when left out. The status and date keys are not among the keys it
      reads, so the prospect-status filter it supports is never set by
      this table. */
  lemma ServerReadsFilters(page: int, f: Filters)
    ensures ProspectsApi.ReadQuery(FetchParams(page, f)).page == Some(page)
    ensures ProspectsApi.ReadQuery(FetchParams(page, f)).search
            == if AllSpace(f.search) then [] else Trim(f.search)
    ensures ProspectsApi.ReadQuery(FetchParams(page, f)).industry
            == if f.industry == All then [] else Lower(f.industry)
    ensures ProspectsApi.ReadQuery(FetchParams(page, f)).callStatus
            == if f.callStatus == All then [] else f.callStatus
    ensures ProspectsApi.ReadQuery(FetchParams(page, f)).prospectStatus == []
  {
    ReadPageOfWrittenPage(page, FilterParams(f));
    GetFilter(f, "search");
    GetFetchFilter(page, f, "search");
    GetFilter(f, "industry");
    GetFetchFilter(page, f, "industry");
    GetFilter(f, "callStatus");
    GetFetchFilter(page, f, "callStatus");
    GetFilter(f, "prospectStatus");
    GetFetchFilter(page, f, "prospectStatus");
  }

  /** The queries `refreshTable` sends, in order. Its own `fetchProspects(1)`
      runs in the render that called the setters, so it still carries the
      filters `f` from before the reset. The reset filters are fetched by
      the filter effect, which runs only when some filter changed. */
  function RefreshRequests(f: Filters): (rs: seq<Params>)
    ensures 1 <= |rs| <= 2 && rs[0] == FetchParams(1, f)
    ensures |rs| == 2 <==> f != ResetFilters
    ensures rs[|rs| - 1] == FetchParams(1, ResetFilters)
  {
    [FetchParams(1, f)] + if f == ResetFilters then [] else [FetchParams(1, ResetFilters)]
  }

  /** Each query of a refresh asks for page 1. */
  lemma RefreshPageIsFirst(f: Filters, k: nat)
    requires k < |RefreshRequests(f)|
    ensures ProspectsApi.ReadQuery(RefreshRequests(f)[k]).page == Some(1)
  {
    var g := if k == 0 then f else ResetFilters;
    assert RefreshRequests(f)[k] == FetchParams(1, g);
    ReadPageOfWrittenPage(1, FilterParams(g));
  }

  /** The last query a refresh sends is the bare first page, which the list
      handler reads as the unfiltered first page. Which reply the table
      shows is not decided here: the two replies race. */
  lemma RefreshFetchesFirstPage(f: Filters)
    ensures var rs := RefreshRequests(f);
            rs[|rs| - 1] == [("page", "1")]
            && ProspectsApi.ReadQuery(rs[|rs| - 1]) == ProspectsApi.ProspectQuery(Some(1), "", "", "", "")
  {
    var rs := RefreshRequests(f);
    assert rs[|rs| - 1] == FetchParams(1, ResetFilters);
    assert IntToString(1) == "1";
    ServerReadsFilters(1, ResetFilters);
  }

  /** With a search typed, the refresh's own query still carries it. */
  lemma RefreshSendsOldSearch(f: Filters)
    requires !AllSpace(f.search)
    ensures ProspectsApi.ReadQuery(RefreshRequests(f)[0]).search == Trim(f.search)
    ensures |RefreshRequests(f)| == 2
  {
    ServerReadsFilters(1, f);
  }

  /** The PUT body of `handleUpdate`. */
  datatype UpdatePayload = UpdatePayload(
    company_name: string, contact_person: string, contact_number: string,
    email_address: Option<string>, industry: string, call_status: string,
    status: string, remark: string, date_added: Option<string>)

  const DefaultCallStatus := "Not Called"
  const DefaultStatus := "Prospect"

  /** The payload built from the selected row: the three text fields
      trimmed, the industry in lower case, empty statuses replaced by their
      defaults, an empty date added left out. */
  function Payload(p: TableProspect): (u: UpdatePayload)
    ensures Trimmed(u.company_name) && Trimmed(u.contact_person) && Trimmed(u.contact_number)
    ensures u.company_name == Trim(p.companyName) && u.contact_person == Trim(p.contactPerson)
    ensures u.contact_number == Trim(p.contactNumber)
    ensures u.email_address == p.emailAddress && u.remark == p.remark
    ensures u.industry == Lower(p.industry) && Lower(u.industry) == u.industry
    ensures u.call_status != [] && u.status != []
    ensures p.callStatus != [] ==> u.call_status == p.callStatus
    ensures p.status != [] ==> u.status == p.status
    ensures u.date_added.None? <==> p.dateAdded == []
    ensures u.date_added.Some? ==> u.date_added.value == p.dateAdded
  {
    LowerIdempotent(p.industry);
    UpdatePayload(
      Trim(p.companyName), Trim(p.contactPerson), Trim(p.contactNumber),
      p.emailAddress,
      if p.industry != [] then Lower(p.industry) else [],
      if p.callStatus != [] then p.callStatus else DefaultCallStatus,
      if p.status != [] then p.status else DefaultStatus,
      p.remark,
      NullIfEmpty(p.dateAdded))
  }

  /** `handleUpdate`: nothing is sent without a selected row; otherwise the
      payload goes to the selected row's id. */
  function HandleUpdate(selected: Option<TableProspect>): (request: Option<(string, UpdatePayload)>)
    ensures request.Some? <==> selected.Some?
    ensures request.Some? ==> request.value.0 == selected.value.id
    ensures request.Some? ==> request.value.1 == Payload(selected.value)
  {
    if selected.None? then None else Some((selected.value.id, Payload(selected.value)))
  }

  /** Saving twice in a row sends the same payload: a payload read back as
      a row builds itself again. */
  lemma PayloadStable(p: TableProspect)
    ensures var u := Payload(p);
            Payload(p.(companyName := u.company_name, contactPerson := u.contact_person,
                       contactNumber := u.contact_number, industry := u.industry,
                       callStatus := u.call_status, status := u.status)) == u
  {
    var u := Payload(p);
    TrimIdempotent(p.companyName);
    TrimIdempotent(p.contactPerson);
    TrimIdempotent(p.contactNumber);
  }

  /** One change made through the edit dialog's inputs. */
  datatype Edit =
    | CompanyNameTyped(text: string)
    | ContactPersonTyped(text: string)
    | ContactNumberTyped(text: string)
    | IndustryPicked(text: string)
    | CallStatusPicked(text: string)
    | StatusPicked(text: string)
    | RemarkTyped(text: string)

  /** `setSelectedProspect((prev) => prev ? { ...prev, key: value } : prev)`:
      a change with no row selected does nothing. */
  function EditSelected(selected: Option<TableProspect>, e: Edit): (r: Option<TableProspect>)
    ensures r.Some? <==> selected.Some?
    ensures r.Some? ==> r.value.id == selected.value.id && r.value.dateAdded == selected.value.dateAdded
    ensures r.Some? ==> r.value.emailAddress == selected.value.emailAddress
    ensures r.Some? && e.RemarkTyped? ==> r.value.remark == e.text
    ensures r.Some? && !e.RemarkTyped? ==> r.value.remark == selected.value.remark
    ensures r.Some? && e.CompanyNameTyped? ==> r.value == selected.value.(companyName := e.text)
    ensures r.Some? && e.ContactPersonTyped? ==> r.value == selected.value.(contactPerson := e.text)
    ensures r.Some? && e.ContactNumberTyped? ==> r.value == selected.value.(contactNumber := e.text)
    ensures r.Some? && e.IndustryPicked? ==> r.value == selected.value.(industry := e.text)
    ensures r.Some? && e.CallStatusPicked? ==> r.value == selected.value.(callStatus := e.text)
    ensures r.Some? && e.StatusPicked? ==> r.value == selected.value.(status := e.text)
    ensures r.Some? && e.RemarkTyped? ==> r.value == selected.value.(remark := e.text)
  {
    if selected.None? then selected
    else
      var p := selected.value;
      Some(match e
        case CompanyNameTyped(t) => p.(companyName := t)
        case ContactPersonTyped(t) => p.(contactPerson := t)
        case ContactNumberTyped(t) => p.(contactNumber := t)
        case IndustryPicked(t) => p.(industry := t)
        case CallStatusPicked(t) => p.(callStatus := t)
        case StatusPicked(t) => p.(status := t)
        case RemarkTyped(t) => p.(remark := t))
  }

  /** Emptying the call status box and saving sends the default status;
      the edit dialog never sends an empty call status or status. */
  lemma ClearedStatusesDefault(p: TableProspect)
    ensures var q := EditSelected(EditSelected(Some(p), CallStatusPicked("")), StatusPicked("")).value;
            Payload(q).call_status == DefaultCallStatus && Payload(q).status == DefaultStatus
  {
  }

  /** What `fetchProspects` received: a body without a data array, an
      error (with the message shown), or rows with an optional page count. */
  datatype FetchReply =
    | Malformed
    | Failed(message: string)
    | Rows(items: seq<ServerProspect>, totalPages: Option<int>)

  /** The table's rows, current page, page count and last error toast. */
  datatype TableState = TableState(data: seq<TableProspect>, page: int,
                                   totalPages: Option<int>, toast: string)

  const InvalidResponseToast := "Invalid response from server"

  /** `fetchProspects(pageToFetch)` after the reply: rows replace the data
      and move to the page fetched; anything else empties the table and
      forgets the page count, keeping the current page. */
  function Fetch(industries: seq<string>, s: TableState, pageToFetch: int, reply: FetchReply): (t: TableState)
    ensures reply.Rows? ==> |t.data| == |reply.items| && t.page == pageToFetch
                            && t.totalPages == reply.totalPages
    ensures reply.Rows? ==> forall i :: 0 <= i < |t.data| ==>
                              t.data[i] == MapServerToProspect(industries, reply.items[i])
    ensures !reply.Rows? ==> t.data == [] && t.totalPages.None? && t.page == s.page
    ensures reply.Malformed? ==> t.toast == InvalidResponseToast
    ensures reply.Failed? ==> t.toast == reply.message
    ensures reply.Rows? ==> t.toast == s.toast
  {
    match reply
    case Malformed => TableState([], s.page, None, InvalidResponseToast)
    case Failed(m) => TableState([], s.page, None, m)
    case Rows(items, n) =>
      TableState(seq(|items|, i requires 0 <= i < |items| => MapServerToProspect(industries, items[i])),
                 pageToFetch, n, s.toast)
  }

  /** Every row the table shows after a fetch has an industry with the
      lower case the server stored. */
  lemma FetchedIndustriesMatchStored(industries: seq<string>, s: TableState, page: int,
                                     items: seq<ServerProspect>, n: Option<int>, i: nat)
    requires i < |items|
    ensures var t := Fetch(industries, s, page, Rows(items, n));
            Lower(t.data[i].industry) == Lower(GetOr(items[i].industry, ""))
  {
  }
}

=== FILE: prospects_api.dfy ===
/** The prospects collection endpoint: the list handler (GET) and the
    create handler (POST). */
module ProspectsApi {
  import opened Text
  import opened Nullable
  import opened Formats
  import opened Validation
  import opened QueryParams
  import opened Paging
  import opened Listing
  import Session

  // ---------------------------------------------------------------- create

  /** The keys the create handler destructures from the JSON body. */
  datatype ProspectBody = ProspectBody(company_name: Field, contact_person: Field,
                                       contact_number: Field, email_address: Field,
                                       industry: Field, website: Field)

  /** The row the create handler inserts (its two timestamps left out). */
  datatype NewProspect = NewProspect(company_name: string, contact_person: string,
                                     contact_number: string, email_address: string,
                                     industry: string, website: Option<string>,
                                     called_count: int, call_status: string,
                                     prospect_status: string, notes: Option<string>,
                                     follow_up_date: Option<string>)

  const ContactPersonRequired := "Contact person is required"

  /** The handler's chain of `if (...) return` steps, in its order: it
      passes exactly when the five required fields are filled and the phone
      and the email have the accepted formats. */
  function Validate(b: ProspectBody): (v: Verdict)
    ensures v == Pass <==> WellFormed(b)
    ensures v == Throw ==> exists f :: f in RequiredFields(b) && f.Other?
  {
    Then(RequireText(b.company_name, CompanyNameRequired),
    Then(RequireText(b.contact_person, ContactPersonRequired),
    Then(RequireText(b.contact_number, ContactNumberRequired),
    Then(RequireText(b.email_address, EmailRequired),
    Then(RequireText(b.industry, IndustryRequired),
    Then(RequirePhone(b.contact_number),
         RequireEmail(b.email_address)))))))
  }

  /** The seven checks, in the order the handler runs them. */
  function Checks(b: ProspectBody): seq<Verdict> {
    [ RequireText(b.company_name, CompanyNameRequired),
      RequireText(b.contact_person, ContactPersonRequired),
      RequireText(b.contact_number, ContactNumberRequired),
      RequireText(b.email_address, EmailRequired),
      RequireText(b.industry, IndustryRequired),
      RequirePhone(b.contact_number),
      RequireEmail(b.email_address) ]
  }

  /** The handler's chain reports the first of its checks that fails. */
  lemma ValidateIsFirstFailure(b: ProspectBody)
    ensures Validate(b) == FirstFailure(Checks(b))
  {
    var cs := Checks(b);
    assert FirstFailureFrom(cs, 6) == cs[6];
    assert FirstFailureFrom(cs, 5) == Then(cs[5], cs[6]);
    assert FirstFailureFrom(cs, 4) == Then(cs[4], Then(cs[5], cs[6]));
    assert FirstFailureFrom(cs, 3) == Then(cs[3], Then(cs[4], Then(cs[5], cs[6])));
    assert FirstFailureFrom(cs, 2) == Then(cs[2], Then(cs[3], Then(cs[4], Then(cs[5], cs[6]))));
    assert FirstFailureFrom(cs, 1) == Then(cs[1], Then(cs[2], Then(cs[3], Then(cs[4], Then(cs[5], cs[6])))));
  }

  /** The five fields the "required" checks look at, in order. */
  function RequiredFields(b: ProspectBody): seq<Field> {
    [b.company_name, b.contact_person, b.contact_number, b.email_address, b.industry]
  }

  /** A body that passes the seven checks, stated field by field. */
  predicate WellFormed(b: ProspectBody) {
    && Filled(b.company_name) && Filled(b.contact_person) && Filled(b.contact_number)
    && Filled(b.email_address) && Filled(b.industry)
    && IsPhone(b.contact_number.text) && IsEmail(b.email_address.text)
  }

  /** A body the handler turns into a row: well formed, with a website that
      is missing, null or a string. */
  predicate ValidBody(b: ProspectBody) {
    WellFormed(b) && !b.website.Other?
  }

  /** What every inserted prospect satisfies: trimmed non-empty required
      fields, a phone and an email in the accepted formats, a website that is
      null or trimmed text, and the defaults of a new prospect. */
  predicate StoredProspect(p: NewProspect) {
    && p.company_name != [] && Trimmed(p.company_name)
    && p.contact_person != [] && Trimmed(p.contact_person)
    && p.industry != [] && Trimmed(p.industry)
    && IsPhone(p.contact_number) && IsEmail(p.email_address)
    && (p.website.None? || (p.website.value != [] && Trimmed(p.website.value)))
    && p.called_count == 0 && p.call_status == "Not Called" && p.prospect_status == "Prospect"
    && p.notes.None? && p.follow_up_date.None?
  }

  /** `website?.trim() || null`: missing or blank becomes null. */
  function OptionalText(f: Field): (r: Option<string>)
    requires !f.Other?
    ensures r.None? <==> f.Absent? || AllSpace(f.text)
    ensures r.Some? ==> r.value == Trim(f.text)
  {
    if f.Str? then NullIfEmpty(Trim(f.text)) else None
  }

  /** The row built from a valid body: trimmed copies of the five required
      fields, the optional website, and the defaults of a new prospect. */
  function Row(b: ProspectBody): (p: NewProspect)
    requires ValidBody(b)
    ensures StoredProspect(p)
    ensures && p.company_name == Trim(b.company_name.text)
            && p.contact_person == Trim(b.contact_person.text)
            && p.contact_number == b.contact_number.text
            && p.email_address == b.email_address.text
            && p.industry == Trim(b.industry.text)
            && p.website == OptionalText(b.website)
  {
    var phone := b.contact_number.text;
    var email := b.email_address.text;
    AcceptedValuesAreTrimmed(phone);
    AcceptedValuesAreTrimmed(email);
    NewProspect(Trim(b.company_name.text), Trim(b.contact_person.text),
                Trim(phone), Trim(email), Trim(b.industry.text),
                OptionalText(b.website), 0, "Not Called", "Prospect", None, None)
  }

  /** The create decision: 401 before anything else, 500 for a body that
      is not JSON or is null, the first failed check, 500 for a non-string
      website, else the row to insert. A JSON value that is not an
      object has none of the fields, so it fails the first check. */
  function Create(authCookie: Option<string>, body: Option<ProspectBody>): (r: Checked<NewProspect>)
    ensures !Session.CheckAuth(authCookie) ==> r == Rejected(Unauthorized)
    ensures Session.CheckAuth(authCookie) && body.None? ==> r == Rejected(InternalError)
    ensures r.Accepted? <==> Session.CheckAuth(authCookie) && body.Some? && ValidBody(body.value)
    ensures r.Accepted? ==> r.row == Row(body.value)
  {
    if !Session.CheckAuth(authCookie) then Rejected(Unauthorized)
    else if body.None? then Rejected(InternalError)
    else
      var b := body.value;
      var v := Validate(b);
      if v != Pass then Rejected(ToError(v))
      else if b.website.Other? then Rejected(InternalError)
      else
        Accepted(Row(b))
  }

  /** The error reported is that of the first check, in handler order,
      that does not pass; nothing after it is looked at. */
  lemma ReportsFirstFailedCheck(authCookie: Option<string>, b: ProspectBody, i: nat)
    requires Session.CheckAuth(authCookie)
    requires i < 7 && Checks(b)[i] != Pass
    requires forall j :: 0 <= j < i ==> Checks(b)[j] == Pass
    ensures Create(authCookie, Some(b)) == Rejected(ToError(Checks(b)[i]))
  {
    ValidateIsFirstFailure(b);
    FirstFailureAt(Checks(b), i);
  }

  /** Once the five required fields are filled, a contact number outside
      the accepted format is what gets reported. */
  lemma PhoneFormatReported(authCookie: Option<string>, b: ProspectBody)
    requires Session.CheckAuth(authCookie)
    requires Filled(b.company_name) && Filled(b.contact_person) && Filled(b.contact_number)
    requires Filled(b.email_address) && Filled(b.industry)
    requires !IsPhone(b.contact_number.text)
    ensures Create(authCookie, Some(b)) == Rejected(ApiError(400, PhoneMessage))
  {
    FilledPasses(b.company_name, CompanyNameRequired);
    FilledPasses(b.contact_person, ContactPersonRequired);
    FilledPasses(b.contact_number, ContactNumberRequired);
    FilledPasses(b.email_address, EmailRequired);
    FilledPasses(b.industry, IndustryRequired);
  }

  /** A phone number with a space in front passes the "required" check
      (which trims) but fails the format check (which does not). */
  lemma PaddedPhoneRejected(authCookie: Option<string>, b: ProspectBody, phone: string)
    requires Session.CheckAuth(authCookie)
    requires Filled(b.company_name) && Filled(b.contact_person)
    requires Filled(b.email_address) && Filled(b.industry)
    requires IsPhone(phone) && b.contact_number == Str(" " + phone)
    ensures Create(authCookie, Some(b)) == Rejected(ApiError(400, PhoneMessage))
  {
    PaddedPhone(phone);
    PhoneFormatReported(authCookie, b);
  }

  // ------------------------------------------------------------------ list

  /** The query parameters the list handler reads, each `|| ""`; the page is
      parsed with `parseInt` (None is NaN). */
  datatype ProspectQuery = ProspectQuery(page: Option<int>, search: string, industry: string,
                                         callStatus: string, prospectStatus: string)

  function ReadQuery(ps: Params): (q: ProspectQuery)
    ensures q.search == GetOrEmpty(ps, "search") && q.industry == GetOrEmpty(ps, "industry")
    ensures q.callStatus == GetOrEmpty(ps, "callStatus")
    ensures q.prospectStatus == GetOrEmpty(ps, "prospectStatus")
    ensures q.page == ReadPage(ps)
  {
    ProspectQuery(ReadPage(ps), GetOrEmpty(ps, "search"), GetOrEmpty(ps, "industry"),
                  GetOrEmpty(ps, "callStatus"), GetOrEmpty(ps, "prospectStatus"))
  }

  /** The `or(...)` filter text exactly as the handler writes it; what it
      selects is decided by the datastore. */
  function SearchFilter(search: string): string {
    "company_name. ilike. %" + search + "%,contact_person.ilike.%" + search + "%"
  }

  /** The datastore query for a list request. */
  function Plan(q: ProspectQuery): (p: ListPlan)
    ensures p.window == PlanWindow(q.page)
    ensures p.orFilter.Some? <==> q.search != []
    ensures p.orFilter.Some? ==> p.orFilter.value == SearchFilter(q.search)
    ensures forall k :: 0 <= k < |p.equals| ==> p.equals[k].1 != []
    ensures ("industry", q.industry) in p.equals <==> q.industry != []
    ensures ("call_status", q.callStatus) in p.equals <==> q.callStatus != []
    ensures ("prospect_status", q.prospectStatus) in p.equals <==> q.prospectStatus != []
    ensures forall e :: e in p.equals ==>
              e == ("industry", q.industry) || e == ("call_status", q.callStatus)
              || e == ("prospect_status", q.prospectStatus)
    ensures forall i, j :: 0 <= i < j < |p.equals| ==> p.equals[i].0 != p.equals[j].0
    ensures |p.equals| <= 3
  {
    ListPlan(PlanWindow(q.page),
             if q.search != [] then Some(SearchFilter(q.search)) else None,
             EqWhen("industry", q.industry) + EqWhen("call_status", q.callStatus)
               + EqWhen("prospect_status", q.prospectStatus))
  }

  /** The list handler. */
  function List<R>(authCookie: Option<string>, ps: Params, outcome: ListOutcome<R>): (x: ListExchange<R>)
    ensures !Session.CheckAuth(authCookie) ==> x.plan.None? && x.response == ListRejected(Unauthorized)
    ensures Session.CheckAuth(authCookie) ==> x.plan == Some(Plan(ReadQuery(ps)))
    ensures Session.CheckAuth(authCookie) ==> x.response == RespondList(ReadPage(ps), outcome)
    ensures x.response.ListOk? ==> outcome.Listed?
                                   && x.response.pagination.totalPages == TotalPages(outcome.count)
                                   && x.response.pagination.pageSize == PageSize
  {
    var q := ReadQuery(ps);
    GatedList(authCookie, q.page, Plan(q), outcome)
  }

  /** Without a `page` parameter the handler asks for rows 0 to 19. */
  lemma DefaultPageIsFirst(authCookie: Option<string>, ps: Params)
    requires Session.CheckAuth(authCookie) && !HasKey(ps, "page")
    ensures Plan(ReadQuery(ps)).window == Some(Window(0, 19))
  {
  }
}

=== FILE: prospects_table.dfy ===
/** The prospects table: the query string it sends for a page, what it
    keeps from the list handler's reply, and the status badge colours. */
module ProspectsTable {
  import opened Nullable
  import opened Decimal
  import opened QueryParams
  import opened Paging
  import opened Listing
  import opened Records
  import ProspectsApi
  import Session

  /** The four filter inputs, "" when unset. */
  datatype Filters = Filters(search: string, industry: string, callStatus: string,
                             prospectStatus: string)

  const NoFilters := Filters("", "", "", "")

  /** The conditional part of the query: `...(search && { search })` and
      the same for industry, callStatus and prospectStatus, each present
      only when not "". */
  function FilterParams(f: Filters): (ps: Params)
    ensures forall k :: 0 <= k < |ps| ==> ps[k].1 != []
  {
    Optional2("search", f.search, "industry", f.industry)
      + Optional2("callStatus", f.callStatus, "prospectStatus", f.prospectStatus)
  }

  /** `new URLSearchParams({ page: page.toString(), ...filters })`: the page
      always comes first. */
  function FetchParams(page: int, f: Filters): (ps: Params)
    ensures |ps| >= 1 && ps[0] == ("page", IntToString(page))
    ensures ps[1..] == FilterParams(f)
  {
    [("page", IntToString(page))] + FilterParams(f)
  }

  /** Each filter is read back as sent, or as missing when it was "". */
  lemma GetFilter(f: Filters, key: string)
    ensures key == "search" ==> Get(FilterParams(f), key) == NullIfEmpty(f.search)
    ensures key == "industry" ==> Get(FilterParams(f), key) == NullIfEmpty(f.industry)
    ensures key == "callStatus" ==> Get(FilterParams(f), key) == NullIfEmpty(f.callStatus)
    ensures key == "prospectStatus" ==> Get(FilterParams(f), key) == NullIfEmpty(f.prospectStatus)
  {
    GetConcat(Optional2("search", f.search, "industry", f.industry),
              Optional2("callStatus", f.callStatus, "prospectStatus", f.prospectStatus), key);
    GetOptional2("search", f.search, "industry", f.industry, key);
    GetOptional2("callStatus", f.callStatus, "prospectStatus", f.prospectStatus, key);
  }

  /** A filter key is not "page", so it is looked up among the filters;
      a filter left out reads as "". */
  lemma GetFetchFilter(page: int, f: Filters, key: string, value: string)
    requires key != "page"
    requires Get(FilterParams(f), key) == NullIfEmpty(value)
    ensures GetOrEmpty(FetchParams(page, f), key) == value
  {
    GetConcat([("page", IntToString(page))], FilterParams(f), key);
  }

  /** The list handler reads back exactly what the table sent: the page
      number, and each filter ("" when it was left out). */
  lemma ParamsReadBack(page: int, f: Filters)
    ensures ProspectsApi.ReadQuery(FetchParams(page, f))
            == ProspectsApi.ProspectQuery(Some(page), f.search, f.industry, f.callStatus,
                                          f.prospectStatus)
  {
    ReadPageOfWrittenPage(page, FilterParams(f));
    GetFilter(f, "search");
    GetFetchFilter(page, f, "search", f.search);
    GetFilter(f, "industry");
    GetFetchFilter(page, f, "industry", f.industry);
    GetFilter(f, "callStatus");
    GetFetchFilter(page, f, "callStatus", f.callStatus);
    GetFilter(f, "prospectStatus");
    GetFetchFilter(page, f, "prospectStatus", f.prospectStatus);
  }

  /** The table's data and pagination state, and the last error toast. */
  datatype TableState = TableState(rows: seq<Prospect>, info: PageInfo, toast: string)

  const InitialState := TableState([], InitialPageInfo, "")

  const FetchFailedToast := "Failed to fetch prospects"

  /** `fetchProspects(page)` against the list handler: on success the rows
      and the returned pagination replace the old ones; on an error reply
      the state is kept and the error shown. */
  function Fetch(s: TableState, authCookie: Option<string>, page: int, f: Filters,
                 outcome: ListOutcome<Prospect>): (t: TableState)
    ensures outcome.Listed? && Session.CheckAuth(authCookie) ==>
              t.rows == outcome.rows && t.info == PageInfo(page, PageSize, outcome.count, TotalPages(outcome.count))
    ensures !(outcome.Listed? && Session.CheckAuth(authCookie)) ==> t.rows == s.rows && t.info == s.info
  {
    var ps := FetchParams(page, f);
    ReadPageOfWrittenPage(page, FilterParams(f));
    var x := ProspectsApi.List(authCookie, ps, outcome);
    match x.response
    case ListRejected(e) => s.(toast := FailureText(Reply(false, Some(e.message)), FetchFailedToast))
    case ListOk(rows, info) =>
      TableState(rows, PageInfo(info.page.value, info.pageSize, info.total, info.totalPages), s.toast)
  }

  /** After a successful fetch of a page that exists, every page the pager
      can ask for next exists too. */
  lemma PagerAfterFetch(s: TableState, authCookie: Option<string>, page: int, f: Filters,
                        rows: seq<Prospect>, count: Option<nat>, a: PagerAction)
    requires Session.CheckAuth(authCookie)
    requires 1 <= page <= TotalPages(count)
    ensures var t := Fetch(s, authCookie, page, f, Listed(rows, count));
            Request(t.info, a).Some? ==> 1 <= Request(t.info, a).value <= TotalPages(count)
  {
    var t := Fetch(s, authCookie, page, f, Listed(rows, count));
    RequestsStayInRange(t.info, a);
  }

  const Grey := "bg-gray-100 text-gray-800"

  /** `getCallStatusColor`: "Not Called" shares the grey default; the
      other four call statuses have their own badges. */
  function CallStatusColor(status: string): (cls: string)
    ensures cls == Grey <==> status !in {"Called", "No Answer", "Interested", "Not Interested"}
  {
    match status
    case "Not Called" => Grey
    case "Called" => "bg-blue-100 text-blue-800"
    case "No Answer" => "bg-yellow-100 text-yellow-800"
    case "Interested" => "bg-green-100 text-green-800"
    case "Not Interested" => "bg-red-100 text-red-800"
    case _ => Grey
  }

  /** `getProspectStatusColor`: a badge for each of the five prospect
      statuses, grey for anything else. */
  function ProspectStatusColor(status: string): (cls: string)
    ensures cls == Grey <==> status !in {"Prospect", "Declined", "Not Sure", "Secured Client", "Ongoing Client"}
  {
    match status
    case "Prospect" => "bg-purple-100 text-purple-800"
    case "Declined" => "bg-red-100 text-red-800"
    case "Not Sure" => "bg-orange-100 text-orange-800"
    case "Secured Client" => "bg-green-100 text-green-800"
    case "Ongoing Client" => "bg-blue-100 text-blue-800"
    case _ => Grey
  }

  /** The five prospect statuses get five different badges. */
  lemma ProspectStatusColorsDistinct()
    ensures forall s, t :: (s in ProspectStatuses && t in ProspectStatuses && s != t)
                           ==> ProspectStatusColor(s) != ProspectStatusColor(t)
  {
  }

  const ProspectStatuses: set<string> := {"Prospect", "Declined", "Not Sure", "Secured Client", "Ongoing Client"}
}

=== FILE: query_params.dfy ===
/** Query strings as ordered key/value pairs, as built by `URLSearchParams`
    or axios `params` and read back with `URLSearchParams.get`. Percent
    encoding is not modelled: a value is read back exactly as it was put. */
module QueryParams {
  import opened Nullable

  type Params = seq<(string, string)>

  predicate HasKey(ps: Params, key: string) {
    exists i :: 0 <= i < |ps| && ps[i].0 == key
  }

  /** `searchParams.get(key)`: the value of the first pair with that key,
      or null when there is none. */
  function Get(ps: Params, key: string): (r: Option<string>)
    ensures r.None? <==> !HasKey(ps, key)
    ensures r.Some? ==> exists i :: 0 <= i < |ps| && ps[i] == (key, r.value)
                                    && forall j :: 0 <= j < i ==> ps[j].0 != key
  {
    if ps == [] then None
    else if ps[0].0 == key then Some(ps[0].1)
    else Get(ps[1..], key)
  }

  /** `searchParams.get(key) || ""`. */
  function GetOrEmpty(ps: Params, key: string): string {
    GetOr(Get(ps, key), "")
  }

  /** A pair present only when `present` holds: the `...(v && { key: v })`
      spread and the `if (...) params.key = v` idiom. */
  function When(present: bool, key: string, value: string): Params {
    if present then [(key, value)] else []
  }

  /** Reading a key of a concatenation looks in the left part first. */
  lemma {:induction false} GetConcat(a: Params, b: Params, key: string)
    ensures Get(a + b, key) == Coalesce(Get(a, key), Get(b, key))
  {
    if a != [] {
      assert (a + b)[1..] == a[1..] + b;
      GetConcat(a[1..], b, key);
    } else {
      assert a + b == b;
    }
  }

  /** Lookup of a key in the conditional pair. */
  lemma GetWhen(present: bool, key: string, value: string, k: string)
    ensures Get(When(present, key, value), k)
            == if present && k == key then Some(value) else None
  {
  }

  /** Two optional filters in a row, each present only when not "". */
  function Optional2(k1: string, v1: string, k2: string, v2: string): (ps: Params)
    ensures forall k :: 0 <= k < |ps| ==> ps[k].1 != []
  {
    When(v1 != [], k1, v1) + When(v2 != [], k2, v2)
  }

  /** Each of the two filters is read back as sent, or as missing when it
      was "". */
  lemma GetOptional2(k1: string, v1: string, k2: string, v2: string, key: string)
    requires k1 != k2
    ensures key == k1 ==> Get(Optional2(k1, v1, k2, v2), key) == NullIfEmpty(v1)
    ensures key == k2 ==> Get(Optional2(k1, v1, k2, v2), key) == NullIfEmpty(v2)
    ensures key != k1 && key != k2 ==> Get(Optional2(k1, v1, k2, v2), key).None?
  {
    GetConcat(When(v1 != [], k1, v1), When(v2 != [], k2, v2), key);
    GetWhen(v1 != [], k1, v1, key);
    GetWhen(v2 != [], k2, v2, key);
  }
}

=== FILE: records.dfy ===
/** The records the client components hold: a stored company and the
    company form, and the stored prospect as the prospect dialogs use it.
    Timestamps are kept as the text the server sent. */
module Records {
  import opened Nullable

  /** A stored company row. */
  datatype Company = Company(id: string, company_name: string, client_name: string,
                             contact_number: string, email_address: string,
                             industry: string, remarks: Option<string>,
                             to_do: Option<string>, status: string,
                             created_at: string, updated_at: string)

  /** The fields of the add-company form. */
  datatype CompanyForm = CompanyForm(company_name: string, client_name: string,
                                     contact_number: string, email_address: string,
                                     industry: string)

  /** A stored prospect row, with the fields the edit dialog reads and
      writes. */
  datatype Prospect = Prospect(id: string, company_name: string, contact_person: string,
                               contact_number: string, email_address: string,
                               industry: string, website: Option<string>,
                               call_status: string, prospect_status: string,
                               notes: Option<string>, follow_up_date: Option<string>,
                               called_count: int, last_called_at: Option<string>)

  /** What a client component learns from a response: whether `res.ok`
      held, and the `error` text of the body when there is one. */
  datatype Reply = Reply(ok: bool, error: Option<string>)

  /** `new Error(errorData.error || fallback)`: the message a failed
      request shows, the server's text unless it is missing or empty. */
  function FailureText(r: Reply, fallback: string): (t: string)
    ensures r.error.Some? && r.error.value != [] ==> t == r.error.value
    ensures r.error.None? || r.error.value == [] ==> t == fallback
  {
    if r.error.Some? && r.error.value != [] then r.error.value else fallback
  }

  /** The toast an edit dialog shows after its PUT reply: the success text
      for an ok reply, else the failure text. */
  function UpdateToast(reply: Reply, succeeded: string, fallback: string): (toast: string)
    ensures reply.ok ==> toast == succeeded
    ensures !reply.ok ==> toast == FailureText(reply, fallback)
  {
    if reply.ok then succeeded else FailureText(reply, fallback)
  }
}

=== FILE: session.dfy ===
/** The session gate: one shared flag carried in the `auth` cookie. */
module Session {
  import opened Nullable

  const AuthCookieName := "auth"
  const AuthCookieValue := "1"
  /** One day, in seconds. */
  const AuthMaxAge := 60 * 60 * 24

  /** `cookies.get("auth")?.value === "1"`, given the value of the `auth`
      cookie (None when the request carries none). */
  predicate CheckAuth(authCookie: Option<string>) {
    authCookie == Some(AuthCookieValue)
  }
}

=== FILE: text.dfy ===
/** Character classes and string helpers with the meaning JavaScript gives them:
    `\s` and `String.prototype.trim` (whitespace), `\d` (ASCII digits),
    `startsWith` and `toLowerCase` (ASCII letters only). */
module Text {

  /** The ECMAScript WhiteSpace and LineTerminator code points: exactly the set
      that the regular-expression class `\s` matches and that `trim()` strips. */
  predicate IsSpace(c: char) {
    || c == '\t' || c == '\n' || c == '\U{000B}' || c == '\U{000C}' || c == '\r'
    || c == ' ' || c == '\U{00A0}' || c == '\U{1680}'
    || ('\U{2000}' <= c <= '\U{200A}')
    || c == '\U{2028}' || c == '\U{2029}' || c == '\U{202F}' || c == '\U{205F}'
    || c == '\U{3000}' || c == '\U{FEFF}'
  }

  /** The regular-expression class `\d`: ASCII digits only. */
  predicate IsDigit(c: char) {
    '0' <= c <= '9'
  }

  predicate AllDigits(s: string) {
    forall i :: 0 <= i < |s| ==> IsDigit(s[i])
  }

  predicate AllSpace(s: string) {
    forall i :: 0 <= i < |s| ==> IsSpace(s[i])
  }

  predicate NoSpace(s: string) {
    forall i :: 0 <= i < |s| ==> !IsSpace(s[i])
  }

  /** A string that `trim()` leaves alone: no whitespace at either end. */
  predicate Trimmed(s: string) {
    s == [] || (!IsSpace(s[0]) && !IsSpace(s[|s| - 1]))
  }

  /** The first position at or after `k` that does not hold whitespace
      (`|s|` when there is none). */
  function SkipSpace(s: string, k: nat): (j: nat)
    requires k <= |s|
    ensures k <= j <= |s|
    ensures forall i :: k <= i < j ==> IsSpace(s[i])
    ensures j == |s| || !IsSpace(s[j])
    decreases |s| - k
  {
    if k < |s| && IsSpace(s[k]) then SkipSpace(s, k + 1) else k
  }

  /** The end of `s[lo..k]` once its trailing whitespace is dropped. */
  function SkipSpaceBack(s: string, lo: nat, k: nat): (j: nat)
    requires lo <= k <= |s|
    ensures lo <= j <= k
    ensures forall i :: j <= i < k ==> IsSpace(s[i])
    ensures j == lo || !IsSpace(s[j - 1])
    decreases k
  {
    if lo < k && IsSpace(s[k - 1]) then SkipSpaceBack(s, lo, k - 1) else k
  }

  /** `String.prototype.trimStart`: the suffix after the leading whitespace. */
  function TrimStart(s: string): (r: string)
    ensures |r| <= |s|
    ensures forall i :: 0 <= i < |r| ==> r[i] == s[|s| - |r| + i]
    ensures forall i :: 0 <= i < |s| - |r| ==> IsSpace(s[i])
    ensures r == [] || !IsSpace(r[0])
  {
    s[SkipSpace(s, 0)..]
  }

  /** `String.prototype.trim`: the slice between the leading and the
      trailing whitespace. */
  function Trim(s: string): (r: string)
    ensures Trimmed(r)
    ensures r == [] <==> AllSpace(s)
    ensures NoSpace(s) ==> r == s
  {
    var a := SkipSpace(s, 0);
    var b := SkipSpaceBack(s, a, |s|);
    assert NoSpace(s) ==> a == 0 && b == |s|;
    s[a..b]
  }

  /** The kept text of `trim()` is a contiguous slice of its input, and every
      character outside the slice is whitespace. */
  lemma TrimIsSlice(s: string)
    ensures exists i :: (0 <= i <= |s| - |Trim(s)|
                         && Trim(s) == s[i..i + |Trim(s)|]
                         && AllSpace(s[..i]) && AllSpace(s[i + |Trim(s)|..]))
  {
    var a := SkipSpace(s, 0);
    var b := SkipSpaceBack(s, a, |s|);
    assert Trim(s) == s[a..b];
    assert AllSpace(s[..a]);
    assert AllSpace(s[b..]);
  }

  /** `trim()` is idempotent. */
  lemma TrimIdempotent(s: string)
    ensures Trim(Trim(s)) == Trim(s)
  {
    var r := Trim(s);
    var a := SkipSpace(r, 0);
    assert r != [] ==> a == 0;
    assert r != [] ==> SkipSpaceBack(r, a, |r|) == |r|;
  }

  function StartsWith(s: string, prefix: string): bool {
    |prefix| <= |s| && s[..|prefix|] == prefix
  }

  /** `toLowerCase` on one character, for the ASCII letters. */
  function LowerChar(c: char): (d: char)
    ensures 'A' <= c <= 'Z' ==> 'a' <= d <= 'z'
    ensures !('A' <= c <= 'Z') ==> d == c
  {
    if 'A' <= c <= 'Z' then (c as int - 'A' as int + 'a' as int) as char else c
  }

  /** `toLowerCase` (ASCII letters only). */
  function Lower(s: string): (r: string)
    ensures |r| == |s|
    ensures forall i :: 0 <= i < |s| ==> r[i] == LowerChar(s[i])
  {
    seq(|s|, i requires 0 <= i < |s| => LowerChar(s[i]))
  }

  /** Lowercasing twice is lowercasing once. */
  lemma LowerIdempotent(s: string)
    ensures Lower(Lower(s)) == Lower(s)
  {
  }
}

=== FILE: validation.dfy ===
/** The request-body values, error responses and first-failure validation
    chain shared by the create (POST) handlers of companies and prospects. */
module Validation {
  import opened Text
  import opened Nullable
  import opened Formats

  /** One key of a parsed JSON request body: missing or `null` (optional
      chaining treats both alike), a string, or any other JSON value
      (number, boolean, array, object), which has no `trim` method. */
  datatype Field = Absent | Str(text: string) | Other

  /** An error response: HTTP status and the `error` message of its body. */
  datatype ApiError = ApiError(status: int, message: string)

  const Unauthorized := ApiError(401, "Unauthorized")
  const InternalError := ApiError(500, "Internal server error")

  /** Outcome of one validation step: it passes, it fails with a 400
      message, or it throws (a TypeError, answered with 500 by the
      handler's catch). */
  datatype Verdict = Pass | Fail(message: string) | Throw

  /** The decision of a create handler before the datastore is called:
      the row to insert, or the error response. */
  datatype Checked<T> = Accepted(row: T) | Rejected(error: ApiError)

  /** The 400 messages the two create handlers share. */
  const CompanyNameRequired := "Company name is required"
  const ContactNumberRequired := "Contact number is required"
  const EmailRequired := "Email address is required"
  const IndustryRequired := "Industry is required"
  const PhoneMessage := "Contact number must be 09 followed by 10 digits (e.g., 09918121869)"
  const EmailMessage := "Invalid email address"

  /** `if (!f?.trim()) return 400 message`: a missing value or one that is
      blank after trimming fails; a non-string throws at `.trim`. */
  function RequireText(f: Field, message: string): (v: Verdict)
    ensures v == Pass <==> Filled(f)
    ensures v == Throw <==> f.Other?
    ensures v.Fail? ==> v.message == message && (f.Absent? || AllSpace(f.text))
  {
    match f
    case Absent => Fail(message)
    case Other => Throw
    case Str(s) => if Trim(s) == [] then Fail(message) else Pass
  }

  /** A required field as the checks want it: a string that is not blank. */
  predicate Filled(f: Field) {
    f.Str? && !AllSpace(f.text)
  }

  lemma FilledPasses(f: Field, message: string)
    requires Filled(f)
    ensures RequireText(f, message) == Pass
  {
  }

  /** `if (!phoneRegex.test(contact_number)) return 400`. The chain only
      reaches it once the "required" check has passed, so `f` is a string. */
  function RequirePhone(f: Field): (v: Verdict)
    ensures v == Pass <==> f.Str? && IsPhone(f.text)
    ensures v != Pass ==> v == Fail(PhoneMessage)
  {
    if f.Str? && IsPhone(f.text) then Pass else Fail(PhoneMessage)
  }

  /** `if (!emailRegex.test(email_address)) return 400`, reached once the
      "required" check has passed. */
  function RequireEmail(f: Field): (v: Verdict)
    ensures v == Pass <==> f.Str? && IsEmail(f.text)
    ensures v != Pass ==> v == Fail(EmailMessage)
  {
    if f.Str? && IsEmail(f.text) then Pass else Fail(EmailMessage)
  }

  /** One `if (...) return` of the chain: a step that does not pass ends
      the handler with its own verdict, one that passes hands over to the
      rest of the chain. */
  function Then(v: Verdict, next: Verdict): (r: Verdict)
    ensures v != Pass ==> r == v
    ensures v == Pass ==> r == next
  {
    if v == Pass then next else v
  }

  /** The checks from position `k` on, run in order. */
  function FirstFailureFrom(checks: seq<Verdict>, k: nat): Verdict
    requires k <= |checks|
    decreases |checks| - k
  {
    if k == |checks| then Pass else Then(checks[k], FirstFailureFrom(checks, k + 1))
  }

  /** Runs checks in order and reports the first one that does not pass;
      `Pass` when every check passes. */
  function FirstFailure(checks: seq<Verdict>): Verdict {
    FirstFailureFrom(checks, 0)
  }

  lemma {:induction false} AllPassFrom(checks: seq<Verdict>, k: nat)
    requires k <= |checks|
    ensures FirstFailureFrom(checks, k) == Pass <==> forall i :: k <= i < |checks| ==> checks[i] == Pass
    decreases |checks| - k
  {
    if k < |checks| {
      AllPassFrom(checks, k + 1);
    }
  }

  /** The chain passes exactly when every one of its checks passes. */
  lemma AllPass(checks: seq<Verdict>)
    ensures FirstFailure(checks) == Pass <==> forall i :: 0 <= i < |checks| ==> checks[i] == Pass
  {
    AllPassFrom(checks, 0);
  }

  lemma {:induction false} FirstFailureFromAt(checks: seq<Verdict>, k: nat, i: nat)
    requires k <= i < |checks| && checks[i] != Pass
    requires forall j :: k <= j < i ==> checks[j] == Pass
    ensures FirstFailureFrom(checks, k) == checks[i]
    decreases i - k
  {
    if k < i {
      FirstFailureFromAt(checks, k + 1, i);
    }
  }

  /** The verdict of the chain is that of the first check that does not
      pass; the checks after it do not matter. */
  lemma FirstFailureAt(checks: seq<Verdict>, i: nat)
    requires i < |checks| && checks[i] != Pass
    requires forall j :: 0 <= j < i ==> checks[j] == Pass
    ensures FirstFailure(checks) == checks[i]
  {
    FirstFailureFromAt(checks, 0, i);
  }

  /** The response a failed step produces. */
  function ToError(v: Verdict): (e: ApiError)
    requires v != Pass
    ensures v.Fail? ==> e == ApiError(400, v.message)
    ensures v.Throw? ==> e == InternalError
  {
    if v.Fail? then ApiError(400, v.message) else InternalError
  }

  /** `s.trim()` on a value the chain has already shown to be a string. */
  function TrimmedText(f: Field): string {
    if f.Str? then Trim(f.text) else []
  }

  /** What the datastore answered to `insert([...]).select()`: an error
      object, the returned rows, or a rejected promise. */
  datatype InsertOutcome<R> = InsertFailed(message: string) | Inserted(rows: seq<R>) | InsertThrew

  datatype PostResponse<R> = PostFailed(error: ApiError) | Created(data: Option<R>)

  /** The response of a create handler: the rejection when validation
      failed (the datastore is not called), else the datastore's error as a
      400, else 201 with the first returned row (`data?.[0]`). */
  function Respond<T, R>(decision: Checked<T>, outcome: InsertOutcome<R>): (r: PostResponse<R>)
    ensures decision.Rejected? ==> r == PostFailed(decision.error)
    ensures decision.Accepted? && outcome.InsertFailed? ==> r == PostFailed(ApiError(400, outcome.message))
    ensures decision.Accepted? && outcome.InsertThrew? ==> r == PostFailed(InternalError)
    ensures r.Created? <==> decision.Accepted? && outcome.Inserted?
    ensures r.Created? ==> (r.data.Some? <==> |outcome.rows| > 0)
    ensures r.Created? && r.data.Some? ==> r.data.value == outcome.rows[0]
  {
    match decision
    case Rejected(e) => PostFailed(e)
    case Accepted(_) =>
      match outcome
      case InsertFailed(m) => PostFailed(ApiError(400, m))
      case InsertThrew => PostFailed(InternalError)
      case Inserted(rows) => Created(if |rows| > 0 then Some(rows[0]) else None)
  }

  function Status<R>(r: PostResponse<R>): int {
    if r.Created? then 201 else r.error.status
  }
}
